=== FILE: README.md ===
# mastothread core, modelled in Dafny

mastothread is a browser tool that splits long text into a thread of posts
for Mastodon. Its logic lives in `script.js`. This project models that
script's text engine:

- **Character limit.** `getCharacterLimit` reads the limit, falling back to
  500 when the value is not a number or is not positive.
- **Chunker.** `splitText` first cuts the text at every `===` manual break.
  It trims each piece. It then peels chunks off the front of each piece:
  - just after the last `.` at or before index `limit`, when that `.` lies at
    index `limit - 99` or later (so a `.` at index `limit` itself counts);
  - otherwise at the last space;
  - otherwise exactly at the limit.
- **Formatter.** `formatChunk` turns a chunk into preview markup. It
  normalises line breaks, blanks whitespace-only lines, runs `processLine`
  on each other line and joins the lines with `<br>`.
- **Annotator.** `processLine` finds URLs, `@user@domain` mentions, `@user`
  mentions and `#hashtags` with four global regular expressions. It drops
  every candidate that lies inside a region already kept, sorts the kept
  regions by start, and splices each region's link markup into the line.
- **Escaper.** `escapeHTML` makes the text stored on each copy button safe.
- **Posts.** The input handler computes, per chunk, the character count,
  the formatted body, the pagination text `\n<index + 1>/<total>` and the
  escaped copy payload.

Modules and files:

| file | module | contents |
|---|---|---|
| `options.dfy` | `Options` | the `Option` type |
| `text.dfy` | `Text` | JavaScript string primitives: `\s`/`\w` classes, `trim`, `indexOf`, `split`, `join`, `substring` |
| `escape.dfy` | `Escape` | `escapeHTML` and a decoder for its five entities |
| `chunker.dfy` | `Chunker` | `getCharacterLimit` and `splitText` |
| `entities.dfy` | `Entities` | the four scanners, one per regular expression, as matchers at a position plus a global `exec` loop |
| `annotator.dfy` | `Annotator` | the containment filter, the sort, the rebuild and `processLine` |
| `formatter.dfy` | `Formatter` | `formatChunk` |
| `posts.dfy` | `Posts` | the per-chunk values of the input handler |

### Chunker

The loops of `splitText` are methods proved equal to a functional
specification, `Chunked(text, limit)`. Its properties are proved about that
function.

The result type is `Outcome`: either `Chunks(list)` or `NeverEnds`. The
inner `while` of `splitText` can reach a step that removes nothing and
leaves the segment unchanged, and then it repeats that step forever. This
happens only when the limit is at most 98 and no `.` lies within the first
`limit + 1` characters of a segment. The model returns `NeverEnds` exactly
when that step is reached (`StepStalls`). `ChunkedEnds` proves that the
process always ends for limits of at least 99, including the default 500.

### Annotator

`processLine` is also a method proved equal to a function,
`Processed(line)`. The properties proved about it are:
- URLs take precedence over everything else;
- no kept region lies inside an earlier one (`Annotator.RegionsNotNested`);
- a mention or hashtag is kept exactly when it lies inside no region kept
  before it, and the kept ones of each scan stay in scan order;
- the kept regions are sorted by start, and the sort is a permutation;
- when the regions are disjoint, the rebuild is the plain substitution of
  each region's markup for its text.

`RebuildOverlap` states what the rebuild does when two regions overlap,
following JavaScript's argument-swapping `substring`.

### Edge cases of the code

- **Blank segments.** A manual segment that is empty after trimming
  yields no chunk, because of `while (manualChunk.length)`. Whitespace-only
  text therefore yields no chunks at all (`Chunker.BlankInput`).
- **Chunk length.** `lastIndexOf('.', limit)` also looks at index `limit`.
  A chunk can therefore be `limit + 1` characters long when its last
  character is a `.` (`Chunker.ChunkSizes`).
- **Empty chunks and small limits.** With a limit of 98 or less and no
  nearby `.`, the cut point is 0 and the loop never ends, as described
  under Chunker.

## Model

| member | source | states |
|---|---|---|
| Text.IsWhitespace | script.js:36 | the definition of the ECMAScript WhiteSpace and LineTerminator code points that `trim()` strips and `\s` matches (script.js:102); `Text.Trim` states what `trim` does with them |
| Text.IsLower | script.js:120 | the definition of the class `[a-z]` of the full-mention pattern's top-level domain |
| Text.IsWordChar | script.js:120 | the definition of the `\w` class `[A-Za-z0-9_]` of the mention and hashtag patterns (script.js:120, 145, 169) |
| Text.AllWhitespace | script.js:78 | the definition of a blank line; `Text.TrimEmptyIffBlank` proves it is the test `!line.trim()` |
| Text.LeadingWhitespace | script.js:36 | the length of the whitespace run that `trim` removes at the front: everything before it is whitespace, the character after it is not |
| Text.TrailingWhitespace | script.js:36 | the length of the whitespace run that `trim` removes at the back, characterised the same way |
| Text.Trim | script.js:36 | `trim` returns the middle of its input: leading whitespace, then the result, then only whitespace; the result neither starts nor ends with whitespace |
| Text.TrailingRunGrows | script.js:36 | a trailing whitespace run followed by one more whitespace character is a run one longer |
| Text.TrimKeepsEnd | script.js:55 | text ending in a non-whitespace character loses only its leading whitespace to `trim`: the result is the text after that whitespace |
| Text.TrimSplit | script.js:55 | such text is exactly the whitespace `trim` drops at its front followed by the trimmed text |
| Text.TrimOfTrimmed | script.js:55 | `trim` leaves already-trimmed text unchanged |
| Text.TrimEmptyIffBlank | script.js:78 | `!line.trim()` holds exactly when every character of the line is whitespace, in both directions |
| Text.IndexOf | script.js:34 | `indexOf` returns the first occurrence at or after the start, or -1 when there is none from there |
| Text.IndexOfAbsent | script.js:34 | a pattern whose first character does not occur is not found |
| Text.ConcatSnoc | script.js:211 | joining parts with `''` after appending one part appends that part to the joined text |
| Text.PrefixFreeOfPattern | script.js:34 | the piece before the first occurrence of the separator does not contain it |
| Text.Split | script.js:34 | `split` with a literal separator: at least one piece, joining the pieces with the separator gives the input back, no piece contains the separator, and each cut is at the first occurrence, since no piece but the last followed by the separator's first `|sep| - 1` characters contains the separator |
| Text.SplitJoinCons | script.js:34 | the piece before the first occurrence of the separator, joined by the separator with the pieces after it, gives the text back |
| Text.SplitFreeCons | script.js:34 | putting that piece in front of separator-free pieces keeps every piece free of the separator, also across each cut |
| Text.FirstCut | script.js:34 | the text before the first occurrence of the separator, followed by all but the last character of the separator, does not contain it |
| Text.Join | script.js:89 | the definition of `join(sep)`: the pieces with the separator between them; `Text.Split` and `Text.JoinCount` state its properties |
| Text.Concat | script.js:211 | the definition of `join('')`; `Text.ConcatSnoc` and `Annotator.RebuildIsSubstitution` state its properties |
| Text.Substring | script.js:199 | `substring(a, b)` is the slice `[a, b)` for in-range arguments in order, and `[b, a)` when they are swapped |
| Text.SubstringFrom | script.js:208 | `substring(a)` is the suffix from `a` for an in-range `a` |
| Text.Clamp | script.js:199 | the clamping `substring` applies: the result is within `[0, n]` and leaves in-range values alone |
| Text.CountCharConcat | script.js:73 | occurrences of a character add up over a concatenation |
| Text.CountCharAbsent | script.js:73 | a character that does not occur is counted zero times |
| Text.NotContainsChar | script.js:73 | a string that does not contain the one-character pattern `c` does not contain `c` |
| Text.SplitCount | script.js:73 | splitting on a one-character separator gives one more piece than there are separators |
| Text.JoinCount | script.js:73 | pieces free of the separator, joined by it, contain exactly one fewer separator than there are pieces |
| Text.JoinBlank | script.js:34-36 | if a joined text is all whitespace, so is every piece |
| Escape.ReplaceAll | script.js:14-18 | `replace(/c/g, rep)` leaves text without `c` unchanged, and removes every `c` when `rep` has none |
| Escape.ReplaceAllConcat | script.js:14-18 | a global replacement distributes over concatenation |
| Escape.ReplaceAllSingle | script.js:14-18 | on one character, a global replacement gives `rep` for the target character and the character itself otherwise |
| Escape.EscapeHtmlConcat | script.js:13-19 | `escapeHTML` distributes over concatenation |
| Escape.ChainFrom | script.js:15-18 | text free of the characters that the remaining replacements target passes through them unchanged, so an entity produced earlier is not altered later |
| Escape.EscapeHtmlChar | script.js:13-19 | on one character, the five chained replacements give exactly that character's entity (`&` first, so no entity is escaped again) |
| Escape.EscapeHtmlIsPerChar | script.js:13-19 | the chained replacements equal escaping each character independently |
| Escape.EscapeCharSafe | script.js:13-19 | the escape of any one character contains no `<`, `>`, `"` or `'` |
| Escape.EscapeEachSafe | script.js:13-19 | escaping each character of a string leaves no `<`, `>`, `"` or `'` |
| Escape.EscapeHtmlSafe | script.js:13-19 | `escapeHTML` output contains no raw `<`, `>`, `"` or `'` |
| Escape.EscapeHtmlIdentity | script.js:13-19 | text without any of the five special characters is unchanged |
| Escape.EscapeEachIdentity | script.js:13-19 | per-character escaping leaves text without special characters unchanged |
| Escape.DecodeOne | script.js:13-19 | decoding reads one escaped character back and continues with the rest |
| Escape.EscapeHtml | script.js:13-19 | the definition of `escapeHTML` as its five chained global replacements; `Escape.EscapeHtmlIsPerChar`, `Escape.EscapeHtmlSafe` and `Escape.EscapeHtmlRoundTrip` state its properties |
| Escape.EscapeHtmlRoundTrip | script.js:13-19 | `DecodeEntities` undoes `escapeHTML` for every input |
| Escape.EscapeEachRoundTrip | script.js:13-19 | decoding undoes per-character escaping |
| Chunker.EffectiveLimit | script.js:21-27 | the parsed value when it is a positive number, 500 when it is NaN or not positive; never below 1 |
| Chunker.LastIndexOf | script.js:45-46 | `lastIndexOf(c, from)`: the last index at or before `from` that holds `c`, or -1 when no such index exists |
| Chunker.SliceEnd | script.js:43-52 | where the source cuts: one past a `.` lying beyond `limit - 100` with no later `.` up to the limit; else at the last space up to the limit; else at the limit; and at 0 for a limit below 99 with no such period |
| Chunker.CutPoint | script.js:43-52 | the two `lastIndexOf` calls and the branch compute exactly `SliceEnd` |
| Chunker.SegmentChunks | script.js:37-58 | the definition of the `while` loop's outcome on one segment; `Chunker.SegmentRebuilds`, `Chunker.SegmentChunkSizes` and `Chunker.SegmentEnds` state its properties |
| Chunker.ChunkSegments | script.js:35-59 | the definition of the `forEach` over manual segments; `Chunker.SegmentsChunkSizes` and `Chunker.SegmentsEnd` state its properties |
| Chunker.Chunked | script.js:29-62 | the definition of `splitText`'s outcome; `Chunker.ChunkSizes`, `Chunker.ChunkedEnds`, `Chunker.BlankInput` and `Chunker.ShortSegments` state its properties |
| Chunker.NoProgressUnchanged | script.js:54-55 | a step whose trimmed remainder is not shorter than the segment cut at 0 and left the segment as it was |
| Chunker.AppendAssoc | script.js:35-59 | running three loops one after another gives the same outcome however they are grouped |
| Chunker.AppendPrepend | script.js:57 | pushing a chunk and then continuing equals continuing from the longer list |
| Chunker.SegmentsStep | script.js:35-59 | one `forEach` iteration extends the chunks by the first segment's chunks, or makes the whole run endless when that segment never ends |
| Chunker.SplitText | script.js:29-62 | the nested loops compute `Chunked(text, getCharacterLimit())` |
| Chunker.SegmentStep | script.js:43-57 | one `while` iteration pushes `seg[..cut]` and continues with the trimmed rest; a step that makes no progress means the loop never ends |
| Chunker.ChunkSegment | script.js:36-58 | the `while` loop on one trimmed manual segment computes `SegmentChunks` of that segment |
| Chunker.PeelShape | script.js:54-55 | a trimmed segment is the chunk, then the whitespace `trim` drops, then the rest; the rest is trimmed and no longer than what follows the cut |
| Chunker.PeelGap | script.js:54-55 | when something follows the cut, the segment is the chunk, the dropped whitespace and the trimmed rest |
| Chunker.SegmentFits | script.js:38-41 | a non-empty segment within the limit is pushed whole and ends the loop |
| Chunker.StepProgresses | script.js:43-55 | for limits of at least 99, or with a nearby period, every step emits a non-empty chunk and leaves a strictly shorter trimmed rest |
| Chunker.StepStalls | script.js:37-58 | for limits of at most 98 with no `.` in the first `limit + 1` characters, the step cuts at 0 and leaves the segment unchanged, so the loop never ends |
| Chunker.StepMoves | script.js:48-55 | a step that shortens the segment cuts at least one character |
| Chunker.SegmentEnds | script.js:37-58 | for limits of at least 99, the `while` loop ends on every trimmed segment |
| Chunker.SegmentsEnd | script.js:35-59 | for limits of at least 99, the `forEach` over manual segments ends |
| Chunker.ChunkedEnds | script.js:29-62 | for limits of at least 99 (the default 500 included), `splitText` ends on every text |
| Chunker.WeaveCons | script.js:54-55 | interleaving chunks with the dropped gaps unfolds one chunk at a time |
| Chunker.RebuildStep | script.js:43-57 | one step splits the segment into the chunk, a whitespace gap and the rest, and the segment's chunks are the chunk followed by the rest's chunks |
| Chunker.SegmentRebuilds | script.js:36-58 | interleaving a segment's chunks with the whitespace that `trim` dropped between them gives the segment back; no chunk is empty |
| Chunker.SegmentChunkSizes | script.js:37-57 | every chunk of a segment has between 1 and `limit + 1` characters, and `limit + 1` only when it ends in `.` |
| Chunker.SegmentsChunkSizes | script.js:35-59 | the same bound holds for the chunks of every manual segment |
| Chunker.ChunkSizes | script.js:29-62 | every chunk `splitText` returns has between 1 and `limit + 1` characters, and exceeds the limit only with a final `.` at index `limit` |
| Chunker.NonEmptyTrimmed | script.js:36-41 | the trimmed manual segments that yield a chunk, never more than there are segments |
| Chunker.ShortSegments | script.js:34-41 | when every trimmed segment fits the limit, the chunks are the trimmed segments with the empty ones dropped |
| Chunker.BlankInput | script.js:29-62 | whitespace-only text yields no chunks |
| Chunker.BlankNonEmpty | script.js:36-37 | segments that are all blank after trimming yield no chunk |
| Chunker.SplitManualExample | script.js:34 | `"A===B".split('===')` is `["A", "B"]` |
| Chunker.ManualBreakExample | script.js:34-39 | `"A===B"` yields exactly the chunks `"A"` and `"B"` for every limit |
| Chunker.WithoutManualBreak | script.js:34-36 | text without `=` is a single manual segment, chunked after trimming |
| Chunker.HardCut | script.js:43-57 | a segment of up to two limits with no whitespace and no `.` is hard-broken at the limit into two chunks |
| Chunker.HardBreakExample | script.js:29-62 | 600 `a`s with limit 500 give a chunk of 500 characters and one of 100 |
| Entities.RunEnd | script.js:120 | the end of the maximal run of a character class from a position, the greedy `+` of the patterns |
| Entities.InClass | script.js:102-120 | the definition of the character classes the patterns repeat (`CharClass`): `NonSpace` is `[^\s]` (script.js:102), `Word` is `\w` (script.js:120, 145, 169), `DomainChar` is `[\w.-]` and `Lower` is `[a-z]` (script.js:120) |
| Entities.TldAt | script.js:120 | the definition of where the `\.[a-z]{2,}` tail of the full-mention pattern can start: a `.` followed by two lower-case letters |
| Entities.LastTldDot | script.js:120 | the last `.` in a range that is followed by at least two lower-case letters, where backtracking `[\w.-]+\.[a-z]{2,}` places the final dot |
| Entities.UrlEnd | script.js:102 | `https?:\/\/[^\s]+` matches at `i` exactly when a scheme and one non-space character follow, and the match runs to the next whitespace |
| Entities.Link | script.js:115-187 | the definition of the four `<a href="…" target="_blank">…</a>` templates; `Entities.FullMentionWhole` and `Annotator.FullMentionLine` state what a link holds |
| Entities.DomainEnd | script.js:120 | `([\w.-]+\.[a-z]{2,})` after the second `@`: when it matches, the tail starts after the last dot in the domain-character run that is followed by two lower-case letters, and the match ends where the lower-case run ends; when it fails, no dot in that run has such a tail |
| Entities.FullMentionEnd | script.js:120 | a match of `@(\w+)@([\w.-]+\.[a-z]{2,})`: the name is the whole word run after `@` and the domain part is exactly `DomainEnd` after the next `@`; no match exactly when the word run is empty, is not followed by `@`, or the domain part fails |
| Entities.SimpleMentionEnd | script.js:145 | a match of `@(\w+)(?!@)`, with the look-ahead's backtracking by one character, and exactly when it fails |
| Entities.HashtagEnd | script.js:169 | `#(\w+)` matches exactly when a word character follows the `#`, and takes the whole word run |
| Entities.MatchAt | script.js:105-108 | a match at `i` starts at `i` with the kind's lead character and is non-empty; its content is the matched text |
| Entities.NextMatch | script.js:105 | `exec` from `lastIndex`: the first position at or after it where the pattern matches, with no match before |
| Entities.Scan | script.js:105-117 | the global `exec` loop: every match found is a real match, and the matches are ordered and disjoint |
| Entities.CoveredCons | script.js:105-117 | a position covered by a match stays covered when a match is put in front |
| Entities.ScanCovers | script.js:105-117 | every position where the pattern matches lies inside some match the loop found |
| Entities.NoLeadScan | script.js:105 | a line with no lead character finds no match |
| Entities.RunEndIs | script.js:120 | a run end is determined by its two boundary conditions |
| Entities.LastTldDotIs | script.js:120 | the final dot is the last dot with a two-letter tail |
| Entities.NoMatchScan | script.js:105 | a line where the pattern matches nowhere finds no match |
| Entities.NoColonNoUrl | script.js:102 | a line without `:` holds no URL |
| Entities.FullMentionEndWhole | script.js:120 | on `@user@domain.tld` the full-mention pattern splits at the second `@` and runs to the end |
| Entities.FullMentionWhole | script.js:120-143 | `@user@domain.tld` is one full mention linking to `https://domain.tld/@user` |
| Entities.NoUrlNoHashtag | script.js:102-117 | a line without `:` and `#` has no URL and no hashtag |
| Entities.MentionCharacters | script.js:120 | a bare full mention contains neither `:` nor `#` |
| Entities.WholeLineScan | script.js:122-124 | a match covering the whole line is the only one the loop finds |
| Annotator.Inside | script.js:127-129 | the definition of the containment test `start >= region.start && end <= region.end` |
| Annotator.InsideAny | script.js:126-129 | the definition of `processedRegions.some(...)` over that test; `Annotator.InsideAnySnoc` and `Annotator.InsideAnyExtends` state its properties |
| Annotator.Admit | script.js:151-165 | keeping a candidate only when it is not inside a region already kept: the kept list grows by candidates only, no newly kept region lies inside an earlier one, and every dropped candidate lies inside some kept region (the exact rule, inside a region kept before it, is `Annotator.AdmitUnclaimed`) |
| Annotator.ScanOrdered | script.js:105-117 | the candidates of one scan are non-empty and each ends at or before the next one starts |
| Annotator.OrderedAfter | script.js:105-117 | in a scan, every later candidate starts at or after the end of the first |
| Annotator.OrderedNotNested | script.js:105-117 | in a scan every candidate starts at or after the end of each earlier one, so none lies inside an earlier one |
| Annotator.OrderedRest | script.js:105-117 | the rest of a scan is still ordered, and none of its candidates lies inside the first one |
| Annotator.Unclaimed | script.js:126-129 | the candidates, in scan order, that lie inside no region of a given list: a candidate is in it exactly when it is a candidate inside none of those regions |
| Annotator.InsideAnySnoc | script.js:126-129 | a region is inside some region of a list with one more region exactly when it is inside one of the old list or inside the new one |
| Annotator.UnclaimedSnoc | script.js:126-129 | adding a region that holds none of the candidates does not change which candidates are unclaimed |
| Annotator.AdmitUnclaimed | script.js:122-143 | on the candidates of one scan, the filtered loop appends exactly the unclaimed candidates, in scan order: a candidate is kept exactly when it lies inside no region kept before it, and a candidate kept earlier in the same loop never claims a later one |
| Annotator.ScansShaped | script.js:101-190 | the four scans of a line are each ordered and carry their scanner's kind |
| Annotator.CascadeStages | script.js:101-190 | each of the three filtered stages appends its unclaimed candidates, in order, to the list kept by the stages before |
| Annotator.CascadeFullKept | script.js:119-143 | a full mention is kept exactly when it lies inside no URL |
| Annotator.CascadeSimpleKept | script.js:145-166 | a simple mention is kept exactly when it lies inside no URL and no full mention kept before it |
| Annotator.CascadeHashtagKept | script.js:169-190 | a hashtag is kept exactly when it lies inside no URL or mention kept before it |
| Annotator.RegionsKept | script.js:101-190 | on any line, each full mention, simple mention and hashtag found is kept exactly when it lies inside no region kept by the earlier stages, in both directions |
| Annotator.ScanInLine | script.js:105-117 | every region found lies within the line and carries its scanner's kind |
| Annotator.InsideAnyExtends | script.js:152-154 | a candidate inside some region stays inside some region as the list grows |
| Annotator.PrefixMembers | script.js:110 | regions pushed earlier remain in the list |
| Annotator.AdmitExtends | script.js:151-165 | every candidate is either kept or inside a kept region |
| Annotator.CascadeKeepsPrefix | script.js:101-190 | each stage only appends: the URLs, then the full mentions kept, then the simple mentions kept, stay a prefix of the final list |
| Annotator.CascadeAdmitted | script.js:119-190 | every region after the URLs comes from a later scanner and lies inside no region before it |
| Annotator.Cascade | script.js:119-190 | the definition of the three filtered stages after the URLs; `Annotator.CascadeStages` and the `Cascade…Kept` lemmas state its properties |
| Annotator.CascadeDropped | script.js:119-190 | a mention or hashtag that was not kept lies inside some kept region (the exact rule is `Annotator.RegionsKept`) |
| Annotator.CascadeMembers | script.js:101-190 | every kept region was found by one of the four scanners |
| Annotator.RegionsPriority | script.js:101-190 | on any line, all URLs are kept first, and every later region is no URL and lies inside no region before it |
| Annotator.Regions | script.js:101-190 | the definition of `processedRegions` before sorting; `Annotator.RegionsKept` and `Annotator.RegionsPriority` state its properties |
| Annotator.RegionsNotNested | script.js:101-190 | on any line no kept region lies inside one kept before it: the URLs because their scan is ordered, the later regions by the containment filter |
| Annotator.RegionsDropped | script.js:119-190 | a mention or hashtag found on the line but not kept lies inside some kept region (the exact rule is `Annotator.RegionsKept`) |
| Annotator.RegionsInLine | script.js:101-190 | every kept region lies within the line |
| Annotator.Insert | script.js:193 | insertion adds exactly one region to the multiset of regions |
| Annotator.InsertSorted | script.js:193 | inserting into a list sorted by start keeps it sorted |
| Annotator.SortByStart | script.js:193 | `sort((a, b) => a.start - b.start)` returns a permutation of its input, sorted by start |
| Annotator.SeparatedSuffix | script.js:196-208 | disjoint, ordered regions stay so without their first one |
| Annotator.SeparatedInit | script.js:196-208 | disjoint, ordered regions stay so without their last one, in the line cut at that region |
| Annotator.RebuildSnoc | script.js:196-208 | rebuilding with one more region at the end splices its markup in and keeps the text after it |
| Annotator.Rebuild | script.js:196-211 | the definition of the `for...of` rebuild with JavaScript's `substring`; `Annotator.RebuildIsSubstitution` and `Annotator.RebuildOverlap` state its properties |
| Annotator.RebuildIsSubstitution | script.js:196-211 | for disjoint regions sorted by start, the rebuild replaces each region's text with its markup and keeps all other text |
| Annotator.SubstituteIdentity | script.js:196-211 | substituting regions whose markup is their own text gives the line back |
| Annotator.Processed | script.js:93-212 | the definition of `processLine`; `Annotator.ProcessedSubstitutes` and `Annotator.FullMentionLine` state its properties |
| Annotator.ProcessedSubstitutes | script.js:93-212 | when the kept regions do not overlap, `processLine` is that substitution |
| Annotator.RebuildOverlap | script.js:196-211 | for two overlapping regions the second `substring` swaps its arguments, and the overlapping text appears again after the first markup |
| Annotator.AdmitInside | script.js:126-129 | candidates that all lie inside the first kept region are all dropped |
| Annotator.CascadeSingle | script.js:145-166 | a lone full mention absorbs every simple mention inside it |
| Annotator.FullMentionRegions | script.js:101-190 | on a bare `@user@domain.tld` line exactly one region is kept, the full mention, and the simple mention `@user` is dropped |
| Annotator.ProcessedWhole | script.js:196-211 | a single region spanning the line is replaced by its markup |
| Annotator.FullMentionLine | script.js:93-212 | `processLine("@user@domain.tld")` is a link to `https://domain.tld/@user` |
| Annotator.ScanFiltered | script.js:122-143 | a mention or hashtag `while` loop pushes exactly the candidates the containment filter admits |
| Annotator.ScanAll | script.js:105-117 | the URL `while` loop collects exactly the scan's matches |
| Annotator.RebuildLine | script.js:196-211 | the `for...of` loop and the final `join('')` compute the rebuild |
| Annotator.ProcessLine | script.js:93-212 | the whole of `processLine` computes `Processed(line)` |
| Formatter.NormalizeBreaks | script.js:70 | after the carriage-return replacement no carriage return is left; where each break lands is fixed by `Formatter.NormalizeBreaksConcat` with `Formatter.NormalizeBreakUnits` and `Formatter.NormalizeKeepsChar` |
| Formatter.NormalizeCountsBreaks | script.js:70 | the normalised text has one line feed per line break of the input, whether `\r\n`, `\r` or `\n` |
| Formatter.UnbrokenConcat | script.js:70 | removing line-break characters distributes over concatenation |
| Formatter.NormalizeKeepsText | script.js:70 | normalisation changes only line breaks; all other characters stay, in order |
| Formatter.NormalizeIdempotent | script.js:70 | normalising twice is normalising once |
| Formatter.NormalizeBreakUnits | script.js:70 | `\r\n`, a lone `\r` and `\n` each become one `\n` |
| Formatter.NormalizeKeepsChar | script.js:70 | every character other than `\r` is kept as it is |
| Formatter.NormalizeBreaksConcat | script.js:70 | normalisation works piece by piece when the cut does not split a `\r\n` pair; with the two lemmas above this fixes the normalised text of every input, each break becoming one `\n` in its own place |
| Formatter.NormalizeExample | script.js:70 | `"a\rb"` normalises to `"a\nb"` |
| Formatter.LinesExample | script.js:70-73 | the lines of `"a\rb"` are `"a"` and `"b"` |
| Formatter.NormalizeWithoutReturns | script.js:70 | text without carriage returns is unchanged |
| Formatter.Lines | script.js:73 | the definition of `split('\n')` on the normalised chunk; `Formatter.LinesOfChunk` states its properties |
| Formatter.FormatLine | script.js:76-86 | the definition of one pass of the `for...of` loop; `Formatter.FormatLines` states its properties |
| Formatter.MapLines | script.js:76-86 | applying a per-line function keeps the number of lines and puts each line's image at its position |
| Formatter.MapLinesSnoc | script.js:76-86 | one more line appends its image, as each loop pass pushes one line |
| Formatter.Formatted | script.js:64-90 | the definition of `formatChunk`; `Formatter.FormatChunk` computes it |
| Formatter.FormatLines | script.js:76-86 | one output line per input line, each blank when the line is whitespace-only and `processLine` of it otherwise |
| Formatter.LinesOfChunk | script.js:73 | a chunk has one line more than it has line breaks, and no line contains a line feed |
| Formatter.FormatChunk | script.js:64-90 | the loop and the `join('<br>')` compute `Formatted(chunk)` |
| Posts.DigitChar | script.js:227 | a digit value prints as a decimal digit |
| Posts.DigitValue | script.js:227 | a decimal digit reads back as the value that prints as it |
| Posts.Decimal | script.js:227 | a number in a template literal prints as a non-empty string of digits with no leading zero |
| Posts.DecimalRoundTrip | script.js:227 | reading the printed digits back gives the number |
| Posts.DecimalInjective | script.js:227 | different numbers print differently |
| Posts.IndexOfFirst | script.js:227 | `indexOf` returns a position where the pattern occurs if it occurs nowhere earlier; used to find the `/` of the pagination text |
| Posts.PaginationText | script.js:225-228 | the definition of the pagination text; `Posts.SuffixRoundTrip` states that it reads back |
| Posts.SuffixRoundTrip | script.js:225-228 | the pagination text reads back as the post's position counted from one and the number of posts |
| Posts.PostContents | script.js:221-233 | a post counts its chunk's characters and shows the chunk formatted; its pagination text is empty when pagination is off and names position and total when it is on; decoding the entities of the text stored on its copy button with `DecodeEntities` gives the chunk followed by the pagination text |
| Posts.PostOf | script.js:221-233 | the definition of one post; `Posts.PostContents` states its properties |
| Posts.RenderPost | script.js:221-233 | the body of the `forEach` callback computes the post for its chunk |
| Posts.RenderPosts | script.js:221-240 | one post per chunk, in order, the `i`-th being the post for chunk `i` of `chunks.length` |
| Posts.PostsSnoc | script.js:221-240 | appending the next chunk's post keeps every post at its chunk's position |

## Left out

- The debounce wrapper, jQuery event wiring, the `#previewArea` DOM updates and the markup around each post are not modelled. The same goes for the clipboard handler and the subtitle rotation. They are UI or I/O with no logic beyond what is modelled.
- `parseInt` of the limit field is a parameter: the model takes the value it returned, with `None` for NaN. Its string grammar is not modelled.
- Strings are sequences of code points, not UTF-16 code units. `length`, `slice` and the regex classes count characters outside the Basic Multilingual Plane as one, where JavaScript counts two.
- Chunker.SplitText: does not loop forever where the source does. It returns `NeverEnds` when it reaches a step that leaves the segment unchanged. Repeating that step forever, pushing empty chunks, is not modelled.
- Annotator.SortByStart: the built-in `sort` is modelled as an insertion sort. Its result is proved sorted and a permutation. `Array.prototype.sort` is stable since ECMAScript 2019, and the insertion is stable too, but the contract does not state stability. No kept regions share a start, so the order is the same either way: a URL, a mention and a hashtag begin with different characters (`h`, `@`, `#`), and a simple mention that starts where a full mention starts ends before its second `@`, so it lies inside the full mention and is dropped.
- Escape.EscapeHtmlSafe: states only that no `<`, `>`, `"` or `'` survives. It makes no wider claim about the HTML the preview builds, which inserts link markup around unescaped text.
- Formatter.FormatLines: the blank-line test is written as "every character is whitespace". `Text.TrimEmptyIffBlank` proves this is the same as the source's `!line.trim()`.
- `Text.Contains` is a ghost predicate used only in contracts; the source's `split` is modelled through `IndexOf`.
- No lemma evaluates a concrete line such as `"check https://x.com/@bob"`. `Annotator.RegionsPriority` proves URL precedence on every line, and `Annotator.FullMentionLine` proves the link for every `@user@name.tld` line.
- The copy handler reads the escaped text back with jQuery's `.data('text')` (script.js:249). That call also converts text that looks like JSON, a number, `true`, `false` or `null` into a value of that type; this conversion is not modelled. The model states only that `DecodeEntities` undoes `escapeHTML`.
- Chunker.SplitText: its contract ties the result to `Chunked`. That `Chunked` ends for limits of at least 99 is stated by `Chunker.ChunkedEnds`, not by the method.

=== FILE: annotator.dfy ===
/**
 * `processLine` (script.js): the four scans in priority order, each keeping a
 * candidate unless it lies wholly inside a region kept before it, the sort by
 * start, and the rebuild of the line with link markup.
 */
module Annotator {
  import opened Options
  import opened Text
  import opened Entities

  /** `start >= region.start && end <= region.end`: containment, not overlap. */
  predicate Inside(c: Region, r: Region) {
    c.start >= r.start && c.end <= r.end
  }

  /** `processedRegions.some(region => ...)`. */
  predicate InsideAny(c: Region, kept: seq<Region>) {
    exists k :: 0 <= k < |kept| && Inside(c, kept[k])
  }

  /** One filtered scan: the candidates, in order, each appended unless it lies
      inside a region kept so far, those appended by this scan included.
      What is kept stays in front; an appended candidate lies inside nothing
      before it; a candidate left out lies inside something kept. */
  function Admit(kept: seq<Region>, cands: seq<Region>): (r: seq<Region>)
    ensures |kept| <= |r| && r[..|kept|] == kept
    ensures forall j :: |kept| <= j < |r| ==> r[j] in cands
    ensures forall j, k :: |kept| <= j < |r| && 0 <= k < j ==> !Inside(r[j], r[k])
    ensures forall c :: c in cands && c !in r ==> InsideAny(c, r)
    decreases |cands|
  {
    if cands == [] then kept
    else
      var next := if InsideAny(cands[0], kept) then kept else kept + [cands[0]];
      var r := Admit(next, cands[1..]);
      assert r[..|next|] == next;
      assert r[..|kept|] == kept by { assert r[..|kept|] == next[..|kept|]; }
      assert forall k :: 0 <= k < |next| ==> r[k] == next[k];
      assert InsideAny(cands[0], r) || cands[0] in r by {
        if InsideAny(cands[0], kept) {
          var k :| 0 <= k < |kept| && Inside(cands[0], kept[k]);
          assert r[k] == kept[k];
        } else {
          assert r[|kept|] == cands[0];
        }
      }
      r
  }

  /** The regions `processLine` keeps, in the order it pushes them. */
  function Regions(line: string): seq<Region> {
    Cascade(Scan(Url, line, 0), Scan(FullMention, line, 0), Scan(SimpleMention, line, 0), Scan(Hashtag, line, 0))
  }

  /** The span of `r` lies in the line and `r.content` is the text it covers. */
  predicate InLine(line: string, r: Region) {
    r.start < r.end <= |line| && r.content == line[r.start..r.end]
  }

  lemma ScanInLine(kind: Kind, line: string)
    ensures forall r :: r in Scan(kind, line, 0) ==> InLine(line, r) && r.kind == kind
  {
  }

  /** Extending a sequence of regions keeps whatever lay inside one of them. */
  lemma InsideAnyExtends(c: Region, p: seq<Region>, q: seq<Region>)
    requires |p| <= |q| && q[..|p|] == p && InsideAny(c, p)
    ensures InsideAny(c, q)
  {
    var k :| 0 <= k < |p| && Inside(c, p[k]);
    assert q[k] == p[k];
  }

  lemma PrefixMembers(p: seq<Region>, q: seq<Region>)
    requires |p| <= |q| && q[..|p|] == p
    ensures forall x :: x in p ==> x in q
  {
    forall x | x in p
      ensures x in q
    {
      var k :| 0 <= k < |p| && p[k] == x;
      assert q[k] == x;
    }
  }

  lemma AdmitExtends(kept: seq<Region>, cands: seq<Region>)
    ensures forall c :: c in cands ==> c in Admit(kept, cands) || InsideAny(c, Admit(kept, cands))
  {
  }

  /** The three filtered scans applied in turn to the URLs. */
  function Cascade(urls: seq<Region>, full: seq<Region>, simple: seq<Region>, tags: seq<Region>): seq<Region> {
    Admit(Admit(Admit(urls, full), simple), tags)
  }

  lemma {:induction false} CascadeKeepsPrefix(urls: seq<Region>, full: seq<Region>, simple: seq<Region>, tags: seq<Region>)
    ensures var a := Admit(urls, full);
            var b := Admit(a, simple);
            var rs := Cascade(urls, full, simple, tags);
            && |b| <= |rs| && rs[..|b|] == b
            && |a| <= |rs| && rs[..|a|] == a
            && |urls| <= |rs| && rs[..|urls|] == urls
  {
    var a := Admit(urls, full);
    var b := Admit(a, simple);
    var rs := Cascade(urls, full, simple, tags);
    assert rs[..|a|] == rs[..|b|][..|a|];
    assert rs[..|urls|] == rs[..|a|][..|urls|];
  }

  lemma {:induction false} CascadeAdmitted(urls: seq<Region>, full: seq<Region>, simple: seq<Region>, tags: seq<Region>, j: nat)
    requires |urls| <= j < |Cascade(urls, full, simple, tags)|
    ensures var rs := Cascade(urls, full, simple, tags);
            && (rs[j] in full || rs[j] in simple || rs[j] in tags)
            && (forall k :: 0 <= k < j ==> !Inside(rs[j], rs[k]))
  {
    var a := Admit(urls, full);
    var b := Admit(a, simple);
    var rs := Cascade(urls, full, simple, tags);
    CascadeKeepsPrefix(urls, full, simple, tags);
    if j < |b| {
      assert forall k :: 0 <= k < |b| ==> rs[k] == b[k];
      if j < |a| {
        assert b[..|a|] == a;
        assert forall k :: 0 <= k < |a| ==> b[k] == a[k];
      }
    }
  }

  lemma {:induction false} CascadeDropped(urls: seq<Region>, full: seq<Region>, simple: seq<Region>, tags: seq<Region>, c: Region)
    requires c in full || c in simple || c in tags
    requires c !in Cascade(urls, full, simple, tags)
    ensures InsideAny(c, Cascade(urls, full, simple, tags))
  {
    var a := Admit(urls, full);
    var b := Admit(a, simple);
    var rs := Cascade(urls, full, simple, tags);
    CascadeKeepsPrefix(urls, full, simple, tags);
    AdmitExtends(urls, full);
    AdmitExtends(a, simple);
    AdmitExtends(b, tags);
    PrefixMembers(a, rs);
    PrefixMembers(b, rs);
    if InsideAny(c, a) {
      InsideAnyExtends(c, a, rs);
    } else if InsideAny(c, b) {
      InsideAnyExtends(c, b, rs);
    }
  }

  lemma {:induction false} CascadeMembers(urls: seq<Region>, full: seq<Region>, simple: seq<Region>, tags: seq<Region>)
    ensures forall r :: r in Cascade(urls, full, simple, tags) ==> r in urls || r in full || r in simple || r in tags
  {
    var a := Admit(urls, full);
    var b := Admit(a, simple);
    var rs := Cascade(urls, full, simple, tags);
    forall r | r in rs
      ensures r in urls || r in full || r in simple || r in tags
    {
      var j :| 0 <= j < |rs| && rs[j] == r;
      if j >= |urls| {
        CascadeAdmitted(urls, full, simple, tags, j);
      } else {
        CascadeKeepsPrefix(urls, full, simple, tags);
        assert rs[..|urls|][j] == r;
      }
    }
  }

  /** The priority rule: every URL is kept, in front; after them, each kept
      region is a mention or a hashtag lying inside no region kept before it. */
  lemma RegionsPriority(line: string, j: nat)
    ensures var urls := Scan(Url, line, 0);
            |urls| <= |Regions(line)| && Regions(line)[..|urls|] == urls
    ensures var urls := Scan(Url, line, 0);
            |urls| <= j < |Regions(line)| ==>
              && Regions(line)[j].kind != Url
              && (forall k :: 0 <= k < j ==> !Inside(Regions(line)[j], Regions(line)[k]))
  {
    var urls, fs, ss, hs := Scan(Url, line, 0), Scan(FullMention, line, 0), Scan(SimpleMention, line, 0), Scan(Hashtag, line, 0);
    CascadeKeepsPrefix(urls, fs, ss, hs);
    if |urls| <= j < |Regions(line)| {
      CascadeAdmitted(urls, fs, ss, hs, j);
      ScanInLine(FullMention, line);
      ScanInLine(SimpleMention, line);
      ScanInLine(Hashtag, line);
    }
  }

  /** No kept region lies inside one kept before it: the URLs because their
      scan is ordered, the later regions by the containment filter. */
  lemma RegionsNotNested(line: string, j: nat, k: nat)
    requires k < j < |Regions(line)|
    ensures !Inside(Regions(line)[j], Regions(line)[k])
  {
    var urls := Candidates(Url, line);
    RegionsPriority(line, j);
    if j < |urls| {
      ScanOrdered(Url, line);
      OrderedNotNested(urls, k, j);
    }
  }

  /** A mention or hashtag that is not kept lies inside a kept region. */
  lemma RegionsDropped(line: string, c: Region)
    requires c in Scan(FullMention, line, 0) || c in Scan(SimpleMention, line, 0) || c in Scan(Hashtag, line, 0)
    requires c !in Regions(line)
    ensures InsideAny(c, Regions(line))
  {
    CascadeDropped(Scan(Url, line, 0), Scan(FullMention, line, 0), Scan(SimpleMention, line, 0), Scan(Hashtag, line, 0), c);
  }

  /** Every kept region covers its own text of the line. */
  lemma RegionsInLine(line: string)
    ensures forall r :: r in Regions(line) ==> InLine(line, r)
  {
    CascadeMembers(Scan(Url, line, 0), Scan(FullMention, line, 0), Scan(SimpleMention, line, 0), Scan(Hashtag, line, 0));
    ScanInLine(Url, line);
    ScanInLine(FullMention, line);
    ScanInLine(SimpleMention, line);
    ScanInLine(Hashtag, line);
  }

  /** What one scan guarantees of its candidates: each is non-empty and ends
      no later than the next one starts. */
  predicate Ordered(cands: seq<Region>) {
    && (forall j :: 0 <= j < |cands| ==> cands[j].start < cands[j].end)
    && (forall j :: 0 <= j < |cands| - 1 ==> cands[j].end <= cands[j + 1].start)
  }

  lemma ScanOrdered(kind: Kind, line: string)
    ensures Ordered(Scan(kind, line, 0))
  {
  }

  lemma {:induction false} OrderedAfter(cands: seq<Region>, m: nat)
    requires Ordered(cands) && 1 <= m < |cands|
    ensures cands[0].end <= cands[m].start
  {
    if m > 1 {
      OrderedAfter(cands, m - 1);
    }
  }

  /** In a scan each candidate starts at or after the end of any earlier one,
      so no candidate lies inside an earlier one. */
  lemma {:induction false} OrderedNotNested(cands: seq<Region>, k: nat, j: nat)
    requires Ordered(cands) && k < j < |cands|
    ensures cands[k].end <= cands[j].start
    ensures !Inside(cands[j], cands[k])
    decreases j
  {
    if j > k + 1 {
      OrderedNotNested(cands, k, j - 1);
    }
  }

  /** Later candidates of a scan never lie inside the first one. */
  lemma OrderedRest(cands: seq<Region>)
    requires Ordered(cands) && cands != []
    ensures Ordered(cands[1..])
    ensures forall c :: c in cands[1..] ==> !Inside(c, cands[0])
  {
    forall c | c in cands[1..]
      ensures !Inside(c, cands[0])
    {
      var m :| 0 <= m < |cands[1..]| && cands[1..][m] == c;
      OrderedAfter(cands, m + 1);
    }
  }

  /** The candidates, in order, that lie inside no region of `kept`: the
      reference filter that each filtered scan is compared with. */
  function Unclaimed(kept: seq<Region>, cands: seq<Region>): (r: seq<Region>)
    ensures forall c :: c in r <==> c in cands && !InsideAny(c, kept)
  {
    if cands == [] then []
    else
      var rest := Unclaimed(kept, cands[1..]);
      assert forall c :: c in cands <==> c == cands[0] || c in cands[1..];
      (if InsideAny(cands[0], kept) then [] else [cands[0]]) + rest
  }

  lemma InsideAnySnoc(c: Region, kept: seq<Region>, r: Region)
    ensures InsideAny(c, kept + [r]) <==> InsideAny(c, kept) || Inside(c, r)
  {
    if InsideAny(c, kept) {
      var k :| 0 <= k < |kept| && Inside(c, kept[k]);
      assert (kept + [r])[k] == kept[k];
    }
    if Inside(c, r) {
      assert (kept + [r])[|kept|] == r;
    }
    if InsideAny(c, kept + [r]) {
      var k :| 0 <= k < |kept| + 1 && Inside(c, (kept + [r])[k]);
      if k < |kept| {
        assert (kept + [r])[k] == kept[k];
      }
    }
  }

  /** A region that holds none of the candidates does not change which of them
      are unclaimed. */
  lemma {:induction false} UnclaimedSnoc(kept: seq<Region>, r: Region, cands: seq<Region>)
    requires forall c :: c in cands ==> !Inside(c, r)
    ensures Unclaimed(kept + [r], cands) == Unclaimed(kept, cands)
    decreases |cands|
  {
    if cands != [] {
      InsideAnySnoc(cands[0], kept, r);
      assert forall c :: c in cands[1..] ==> c in cands;
      UnclaimedSnoc(kept, r, cands[1..]);
    }
  }

  /** On the candidates of one scan, the filtered loop appends exactly the
      candidates, in scan order, that lie inside no region kept before the
      scan began. */
  lemma {:induction false} AdmitUnclaimed(kept: seq<Region>, cands: seq<Region>)
    requires Ordered(cands)
    ensures Admit(kept, cands) == kept + Unclaimed(kept, cands)
    decreases |cands|
  {
    if cands != [] {
      var c := cands[0];
      OrderedRest(cands);
      if InsideAny(c, kept) {
        AdmitUnclaimed(kept, cands[1..]);
      } else {
        AdmitUnclaimed(kept + [c], cands[1..]);
        UnclaimedSnoc(kept, c, cands[1..]);
        Assoc(kept, [c], Unclaimed(kept, cands[1..]));
      }
    }
  }

  predicate OfKind(rs: seq<Region>, kind: Kind) {
    forall r :: r in rs ==> r.kind == kind
  }

  /** What the four scans guarantee of their candidates. */
  predicate ScanShaped(urls: seq<Region>, full: seq<Region>, simple: seq<Region>, tags: seq<Region>) {
    && Ordered(full) && Ordered(simple) && Ordered(tags)
    && OfKind(urls, Url) && OfKind(full, FullMention) && OfKind(simple, SimpleMention) && OfKind(tags, Hashtag)
  }

  /** The candidates the scan for `kind` finds on the whole line. */
  function Candidates(kind: Kind, line: string): seq<Region> {
    Scan(kind, line, 0)
  }

  lemma ScansShaped(line: string)
    ensures ScanShaped(Candidates(Url, line), Candidates(FullMention, line),
                       Candidates(SimpleMention, line), Candidates(Hashtag, line))
  {
    ScanOrdered(FullMention, line);
    ScanOrdered(SimpleMention, line);
    ScanOrdered(Hashtag, line);
  }

  /** The filtered scans keep the URLs, then the full mentions inside no URL,
      then the simple mentions inside no region kept so far, then the hashtags
      inside no region kept so far, each in scan order. */
  lemma CascadeStages(urls: seq<Region>, full: seq<Region>, simple: seq<Region>, tags: seq<Region>)
    requires ScanShaped(urls, full, simple, tags)
    ensures var a := urls + Unclaimed(urls, full);
            var b := a + Unclaimed(a, simple);
            && Admit(urls, full) == a
            && Admit(a, simple) == b
            && Cascade(urls, full, simple, tags) == b + Unclaimed(b, tags)
  {
    AdmitUnclaimed(urls, full);
    AdmitUnclaimed(urls + Unclaimed(urls, full), simple);
    var a := urls + Unclaimed(urls, full);
    AdmitUnclaimed(a + Unclaimed(a, simple), tags);
  }

  /** A full mention is kept exactly when it lies inside no URL. */
  lemma CascadeFullKept(urls: seq<Region>, full: seq<Region>, simple: seq<Region>, tags: seq<Region>, c: Region)
    requires ScanShaped(urls, full, simple, tags) && c in full
    ensures c in Cascade(urls, full, simple, tags) <==> !InsideAny(c, urls)
  {
    CascadeStages(urls, full, simple, tags);
    var a := urls + Unclaimed(urls, full);
    var b := a + Unclaimed(a, simple);
    assert c !in urls && c !in Unclaimed(a, simple) && c !in Unclaimed(b, tags);
  }

  /** A simple mention is kept exactly when it lies inside no region kept by
      the URL and full-mention scans. */
  lemma CascadeSimpleKept(urls: seq<Region>, full: seq<Region>, simple: seq<Region>, tags: seq<Region>, c: Region)
    requires ScanShaped(urls, full, simple, tags) && c in simple
    ensures c in Cascade(urls, full, simple, tags) <==> !InsideAny(c, Admit(urls, full))
  {
    CascadeStages(urls, full, simple, tags);
    var a := urls + Unclaimed(urls, full);
    var b := a + Unclaimed(a, simple);
    assert c !in a && c !in Unclaimed(b, tags);
  }

  /** A hashtag is kept exactly when it lies inside no region kept by the
      three scans before it. */
  lemma CascadeHashtagKept(urls: seq<Region>, full: seq<Region>, simple: seq<Region>, tags: seq<Region>, c: Region)
    requires ScanShaped(urls, full, simple, tags) && c in tags
    ensures c in Cascade(urls, full, simple, tags) <==> !InsideAny(c, Admit(Admit(urls, full), simple))
  {
    CascadeStages(urls, full, simple, tags);
    var a := urls + Unclaimed(urls, full);
    var b := a + Unclaimed(a, simple);
    assert c !in b;
  }

  /** The drop rule on a line: each mention or hashtag is kept exactly when it
      lies inside no region kept by an earlier scan. */
  lemma RegionsKept(line: string, c: Region)
    ensures var urls, full, simple := Candidates(Url, line), Candidates(FullMention, line), Candidates(SimpleMention, line);
            && (c in full ==> (c in Regions(line) <==> !InsideAny(c, urls)))
            && (c in simple ==> (c in Regions(line) <==> !InsideAny(c, Admit(urls, full))))
            && (c in Candidates(Hashtag, line) ==> (c in Regions(line) <==> !InsideAny(c, Admit(Admit(urls, full), simple))))
  {
    ScansShaped(line);
    var urls, full, simple, tags := Candidates(Url, line), Candidates(FullMention, line), Candidates(SimpleMention, line), Candidates(Hashtag, line);
    if c in full {
      CascadeFullKept(urls, full, simple, tags, c);
    }
    if c in simple {
      CascadeSimpleKept(urls, full, simple, tags, c);
    }
    if c in tags {
      CascadeHashtagKept(urls, full, simple, tags, c);
    }
  }

  predicate SortedByStart(rs: seq<Region>) {
    forall i, j :: 0 <= i < j < |rs| ==> rs[i].start <= rs[j].start
  }

  /** Insertion after every region that does not start later: a stable insertion. */
  function Insert(sorted: seq<Region>, r: Region): (s: seq<Region>)
    ensures multiset(s) == multiset(sorted) + multiset{r}
    decreases |sorted|
  {
    if sorted == [] || sorted[|sorted| - 1].start <= r.start then
      sorted + [r]
    else
      var init, last := sorted[..|sorted| - 1], sorted[|sorted| - 1];
      assert sorted == init + [last];
      Insert(init, r) + [last]
  }

  lemma {:induction false} InsertSorted(sorted: seq<Region>, r: Region)
    requires SortedByStart(sorted)
    ensures SortedByStart(Insert(sorted, r))
    decreases |sorted|
  {
    if !(sorted == [] || sorted[|sorted| - 1].start <= r.start) {
      var init, last := sorted[..|sorted| - 1], sorted[|sorted| - 1];
      var s := Insert(init, r);
      InsertSorted(init, r);
      var t := s + [last];
      assert Insert(sorted, r) == t;
      forall i, j | 0 <= i < j < |t|
        ensures t[i].start <= t[j].start
      {
        assert t[i] == s[i];
        if j == |s| {
          assert s[i] in multiset(init) + multiset{r};
          if s[i] != r {
            var k :| 0 <= k < |init| && init[k] == s[i];
            assert sorted[k] == init[k];
          }
        }
      }
    }
  }

  /** `processedRegions.sort((a, b) => a.start - b.start)`: sorted by start and
      a permutation of its input. */
  function SortByStart(rs: seq<Region>): (s: seq<Region>)
    ensures SortedByStart(s) && multiset(s) == multiset(rs)
    decreases |rs|
  {
    if rs == [] then []
    else
      assert rs == rs[..|rs| - 1] + [rs[|rs| - 1]];
      InsertSorted(SortByStart(rs[..|rs| - 1]), rs[|rs| - 1]);
      Insert(SortByStart(rs[..|rs| - 1]), rs[|rs| - 1])
  }

  /** The rebuild loop from `lastIndex == last`: the text before each region
      (with `substring`'s clamping and swapping), then its markup. */
  function Rebuild(line: string, rs: seq<Region>, last: int): string
    decreases |rs|
  {
    if rs == [] then SubstringFrom(line, last)
    else Substring(line, last, rs[0].start) + rs[0].html + Rebuild(line, rs[1..], rs[0].end)
  }

  /** `processLine(line)`. */
  function Processed(line: string): string {
    Rebuild(line, SortByStart(Regions(line)), 0)
  }

  /** Each region ends no later than the next one starts, and all lie in `line`. */
  predicate Separated(line: string, rs: seq<Region>) {
    && (forall r :: r in rs ==> r.start <= r.end <= |line|)
    && (forall i, j :: 0 <= i < j < |rs| ==> rs[i].end <= rs[j].start)
  }

  /** The reference definition of the rebuild: replace the last region of the
      line by its markup, then the rest of the line before it the same way. */
  function Substitute(line: string, rs: seq<Region>): string
    requires Separated(line, rs)
    decreases |rs|
  {
    if rs == [] then line
    else
      var r := rs[|rs| - 1];
      Substitute(line[..r.start], rs[..|rs| - 1]) + r.html + line[r.end..]
  }

  lemma SeparatedSuffix(line: string, rs: seq<Region>)
    requires Separated(line, rs) && rs != []
    ensures Separated(line, rs[1..])
  {
    forall i, j | 0 <= i < j < |rs[1..]|
      ensures rs[1..][i].end <= rs[1..][j].start
    {
      assert rs[1..][i] == rs[i + 1] && rs[1..][j] == rs[j + 1];
    }
  }

  /** Dropping the last region leaves the others separated within the line
      cut at its start. */
  lemma SeparatedInit(line: string, rs: seq<Region>)
    requires Separated(line, rs) && rs != []
    ensures rs[|rs| - 1].start <= rs[|rs| - 1].end <= |line|
    ensures Separated(line[..rs[|rs| - 1].start], rs[..|rs| - 1])
  {
    var init, r := rs[..|rs| - 1], rs[|rs| - 1];
    assert r in rs;
    forall x | x in init
      ensures x.start <= x.end <= r.start
    {
      var i :| 0 <= i < |init| && init[i] == x;
      assert rs[i] == x;
    }
    forall i, j | 0 <= i < j < |init|
      ensures init[i].end <= init[j].start
    {
      assert init[i] == rs[i] && init[j] == rs[j];
    }
  }

  /** Rebuilding up to a final region `r` is rebuilding the line cut at `r`,
      then `r`'s markup, then the rest of the line. */
  lemma {:induction false} RebuildSnoc(line: string, rs: seq<Region>, r: Region, last: int)
    requires r.start <= r.end <= |line|
    requires Separated(line[..r.start], rs)
    requires 0 <= last <= (if rs == [] then r.start else rs[0].start)
    ensures Rebuild(line, rs + [r], last) == Rebuild(line[..r.start], rs, last) + r.html + line[r.end..]
    decreases |rs|
  {
    var all := rs + [r];
    var cut, tail := line[..r.start], line[r.end..];
    if rs == [] {
      assert all[1..] == [];
      assert cut[last..] == line[last..r.start];
    } else {
      var rest := rs[1..];
      assert all[0] == rs[0] && all[1..] == rest + [r];
      SeparatedSuffix(cut, rs);
      assert rs[0] in rs;
      assert rest != [] ==> rs[0].end <= rest[0].start by {
        if rest != [] {
          assert rest[0] == rs[1];
        }
      }
      var s, h := Substring(line, last, rs[0].start), rs[0].html;
      var x := Rebuild(cut, rest, rs[0].end);
      calc {
        Rebuild(line, all, last);
        s + h + Rebuild(line, rest + [r], rs[0].end);
        { RebuildSnoc(line, rest, r, rs[0].end); }
        s + h + (x + r.html + tail);
        { Assoc(s + h, x + r.html, tail); Assoc(s + h, x, r.html); }
        s + h + x + r.html + tail;
        { assert cut[last..rs[0].start] == line[last..rs[0].start]; }
        Rebuild(cut, rs, last) + r.html + tail;
      }
    }
  }

  /** With the regions separated, the rebuild loop is the substitution. */
  lemma {:induction false} RebuildIsSubstitution(line: string, rs: seq<Region>)
    requires Separated(line, rs)
    ensures Rebuild(line, rs, 0) == Substitute(line, rs)
    decreases |rs|
  {
    if rs == [] {
      assert line[0..] == line;
    } else {
      var init, r := rs[..|rs| - 1], rs[|rs| - 1];
      SeparatedInit(line, rs);
      assert init != [] ==> init[0] in init;
      assert rs == init + [r];
      RebuildSnoc(line, init, r, 0);
      RebuildIsSubstitution(line[..r.start], init);
    }
  }

  /** Markup that is the region's own text gives the line back: the substitution
      copies everything outside the regions verbatim. */
  lemma {:induction false} SubstituteIdentity(line: string, rs: seq<Region>)
    requires Separated(line, rs)
    requires forall x :: x in rs ==> x.html == line[x.start..x.end]
    ensures Substitute(line, rs) == line
    decreases |rs|
  {
    if rs != [] {
      var init, r := rs[..|rs| - 1], rs[|rs| - 1];
      SeparatedInit(line, rs);
      var cut := line[..r.start];
      forall x | x in init
        ensures x.html == cut[x.start..x.end]
      {
        assert x in rs;
      }
      SubstituteIdentity(cut, init);
      assert r in rs;
      assert line == cut + line[r.start..r.end] + line[r.end..];
    }
  }

  /** When the kept regions, sorted, do not overlap, `processLine` replaces each
      by its link markup and copies the rest of the line unchanged. */
  lemma ProcessedSubstitutes(line: string)
    requires Separated(line, SortByStart(Regions(line)))
    ensures Processed(line) == Substitute(line, SortByStart(Regions(line)))
  {
    RebuildIsSubstitution(line, SortByStart(Regions(line)));
  }

  /** A partial overlap, which the containment test lets through: `substring`
      swaps its arguments, and the overlapping text is emitted between the two
      links although each link already shows it. */
  lemma RebuildOverlap(line: string, a: Region, b: Region)
    requires a.start <= b.start < a.end <= b.end <= |line|
    ensures Rebuild(line, [a, b], 0) == line[..a.start] + a.html + (line[b.start..a.end] + b.html + line[b.end..])
  {
    assert [a, b][1..] == [b];
    assert [b][1..] == [];
    assert Rebuild(line, [b], a.end) == line[b.start..a.end] + b.html + line[b.end..];
  }

  /** The three filtered `exec` loops: scan `kind` from the start of the line
      and append each match that lies inside no region kept so far. */
  method ScanFiltered(kind: Kind, line: string, kept: seq<Region>) returns (regions: seq<Region>)
    ensures regions == Admit(kept, Scan(kind, line, 0))
  {
    regions := kept;
    var lastIndex := 0;
    var m := NextMatch(kind, line, lastIndex);
    while m.Some?
      invariant lastIndex <= |line| && m == NextMatch(kind, line, lastIndex)
      invariant Admit(regions, Scan(kind, line, lastIndex)) == Admit(kept, Scan(kind, line, 0))
      decreases |line| - lastIndex
    {
      var region := m.value;
      assert Scan(kind, line, lastIndex) == [region] + Scan(kind, line, region.end);
      assert ([region] + Scan(kind, line, region.end))[1..] == Scan(kind, line, region.end);
      if !InsideAny(region, regions) {
        regions := regions + [region];
      }
      lastIndex := region.end;
      m := NextMatch(kind, line, lastIndex);
    }
  }

  /** The unfiltered URL `exec` loop. */
  method ScanAll(kind: Kind, line: string) returns (regions: seq<Region>)
    ensures regions == Scan(kind, line, 0)
  {
    regions := [];
    var lastIndex := 0;
    var m := NextMatch(kind, line, lastIndex);
    while m.Some?
      invariant lastIndex <= |line| && m == NextMatch(kind, line, lastIndex)
      invariant regions + Scan(kind, line, lastIndex) == Scan(kind, line, 0)
      decreases |line| - lastIndex
    {
      var region := m.value;
      assert Scan(kind, line, lastIndex) == [region] + Scan(kind, line, region.end);
      Assoc(regions, [region], Scan(kind, line, region.end));
      regions := regions + [region];
      lastIndex := region.end;
      m := NextMatch(kind, line, lastIndex);
    }
    assert regions + [] == regions;
  }

  /** The rebuild loop: push the text since `lastIndex`, then the region's
      markup, for each region in order; then the rest of the line; then join. */
  method RebuildLine(line: string, regions: seq<Region>) returns (out: string)
    ensures out == Rebuild(line, regions, 0)
  {
    var parts: seq<string> := [];
    var lastIndex := 0;
    for k := 0 to |regions|
      invariant Concat(parts) + Rebuild(line, regions[k..], lastIndex) == Rebuild(line, regions, 0)
    {
      var region := regions[k];
      var before, rest := Substring(line, lastIndex, region.start), Rebuild(line, regions[k + 1..], region.end);
      assert regions[k..][1..] == regions[k + 1..];
      assert Rebuild(line, regions[k..], lastIndex) == before + region.html + rest;
      ConcatSnoc(parts, before);
      ConcatSnoc(parts + [before], region.html);
      Assoc(Concat(parts) + before, region.html, rest);
      Assoc(Concat(parts), before, region.html + rest);
      Assoc(before, region.html, rest);
      parts := parts + [before] + [region.html];
      lastIndex := region.end;
    }
    ConcatSnoc(parts, SubstringFrom(line, lastIndex));
    parts := parts + [SubstringFrom(line, lastIndex)];
    out := Concat(parts);
  }

  /** `processLine`: the URL loop, the three filtered loops, the sort and the
      rebuild. */
  method ProcessLine(line: string) returns (out: string)
    ensures out == Processed(line)
  {
    var processedRegions := ScanAll(Url, line);
    processedRegions := ScanFiltered(FullMention, line, processedRegions);
    processedRegions := ScanFiltered(SimpleMention, line, processedRegions);
    processedRegions := ScanFiltered(Hashtag, line, processedRegions);
    processedRegions := SortByStart(processedRegions);
    out := RebuildLine(line, processedRegions);
  }


  /** Candidates that all lie inside the first kept region are all dropped. */
  lemma {:induction false} AdmitInside(kept: seq<Region>, cands: seq<Region>)
    requires kept != [] && forall c :: c in cands ==> Inside(c, kept[0])
    ensures Admit(kept, cands) == kept
    decreases |cands|
  {
    if cands != [] {
      assert Inside(cands[0], kept[0]);
      AdmitInside(kept, cands[1..]);
    }
  }

  /** A line that is one `@user@name.tld` mention (laid out as in
      `FullMentionWhole`) keeps exactly that mention: no URL and no hashtag
      can match, and every simple mention found inside it is dropped. */
  lemma FullMentionRegions(line: string, w: nat, dot: nat)
    requires 1 < w && w + 1 < dot && dot + 2 < |line|
    requires line[0] == '@' && line[w] == '@' && line[dot] == '.'
    requires forall j :: 1 <= j < w ==> IsWordChar(line[j])
    requires forall j :: w < j < dot ==> InClass(DomainChar, line[j])
    requires forall j :: dot < j < |line| ==> IsLower(line[j])
    ensures Regions(line) == [Region(0, |line|, FullMention, line, Link("https://" + line[w + 1..] + "/@" + line[1..w], line))]
  {
    var full := Region(0, |line|, FullMention, line, Link("https://" + line[w + 1..] + "/@" + line[1..w], line));
    MentionCharacters(line, w, dot);
    NoUrlNoHashtag(line);
    FullMentionWhole(line, w, dot);
    WholeLineScan(FullMention, line, full);
    ScanInLine(SimpleMention, line);
    CascadeSingle(full, Scan(SimpleMention, line, 0));
  }

  /** With no URLs and no hashtags, one full mention keeps out every simple
      mention inside it. */
  lemma CascadeSingle(full: Region, simple: seq<Region>)
    requires forall c :: c in simple ==> Inside(c, full)
    ensures Cascade([], [full], simple, []) == [full]
  {
    assert [full][1..] == [];
    assert Admit([], [full]) == [full];
    AdmitInside([full], simple);
  }

  /** The processed line is then the one link to `https://name.tld/@user`. */
  lemma FullMentionLine(line: string, w: nat, dot: nat)
    requires 1 < w && w + 1 < dot && dot + 2 < |line|
    requires line[0] == '@' && line[w] == '@' && line[dot] == '.'
    requires forall j :: 1 <= j < w ==> IsWordChar(line[j])
    requires forall j :: w < j < dot ==> InClass(DomainChar, line[j])
    requires forall j :: dot < j < |line| ==> IsLower(line[j])
    ensures Processed(line) == Link("https://" + line[w + 1..] + "/@" + line[1..w], line)
  {
    FullMentionRegions(line, w, dot);
    ProcessedWhole(line, Region(0, |line|, FullMention, line, Link("https://" + line[w + 1..] + "/@" + line[1..w], line)));
  }

  /** A line whose one kept region spans all of it is replaced by that
      region's markup. */
  lemma ProcessedWhole(line: string, r: Region)
    requires Regions(line) == [r] && r.start == 0 && r.end == |line|
    ensures Processed(line) == r.html
  {
    assert [r][1..] == [];
    assert SortByStart([r]) == [r];
    assert Rebuild(line, [], |line|) == [];
    assert Substring(line, 0, 0) == [];
  }
}

=== FILE: chunker.dfy ===
/**
 * The chunker of script.js: `getCharacterLimit`'s defaulting rule and
 * `splitText`, which cuts the text at every manual break `===`, trims each
 * piece and then greedily peels chunks off the front of it until the rest
 * fits the limit, preferring a sentence end near the limit, then a space,
 * then a hard cut at the limit.
 */
module Chunker {
  import opened Options
  import opened Text

  /** The limit used when the field does not parse to a positive integer. */
  const DefaultLimit: nat := 500

  /** The literal marker of a manual break. */
  const ManualBreak := "==="

  /** What `splitText` produces: its chunks, or `NeverEnds` when its inner loop
      reaches a step that leaves the segment unchanged and so repeats forever. */
  datatype Outcome = Chunks(chunks: seq<string>) | NeverEnds

  /** `getCharacterLimit` given what `parseInt` returned (`None` for NaN). */
  function EffectiveLimit(parsed: Option<int>): (limit: nat)
    ensures limit >= 1
    ensures parsed.Some? && parsed.value > 0 ==> limit == parsed.value
    ensures parsed.None? || parsed.value <= 0 ==> limit == DefaultLimit
  {
    if parsed.None? || parsed.value <= 0 then DefaultLimit else parsed.value
  }

  /** `s.lastIndexOf(c, from)`: the greatest index at most `from` that holds `c`, or -1. */
  function LastIndexOf(s: string, c: char, from: nat): (r: int)
    ensures -1 <= r < |s| && r <= from
    ensures r >= 0 ==> s[r] == c
    ensures forall i :: r < i < |s| && i <= from ==> s[i] != c
    decreases from
  {
    if from >= |s| then (if s == [] then -1 else LastIndexOf(s, c, |s| - 1))
    else if s[from] == c then from
    else if from == 0 then -1
    else LastIndexOf(s, c, from - 1)
  }

  /** Some `.` lies at an index `p <= limit` with `p > limit - 100`. */
  ghost predicate PeriodNear(seg: string, limit: nat) {
    exists p :: limit - 99 <= p <= limit && 0 <= p < |seg| && seg[p] == '.'
  }

  /** Some space (U+0020 only) lies at an index at most `limit`. */
  ghost predicate SpaceUpTo(seg: string, limit: nat) {
    exists i :: 0 <= i <= limit && i < |seg| && seg[i] == ' '
  }

  /** No `c` at the indices `lo .. hi - 1`. */
  ghost predicate NoneIn(s: string, c: char, lo: int, hi: int) {
    forall i :: lo <= i < hi && 0 <= i < |s| ==> s[i] != c
  }

  /** The `sliceEnd` that `splitText` cuts a segment longer than the limit at:
      just after the last `.` at or before the limit when that `.` is within
      the last 100 positions; else at the last space at or before the limit;
      else at the limit itself. With a limit below 99 a missing `.` makes
      `lastPeriod` (-1) pass the sentence test and the cut is 0. */
  function SliceEnd(seg: string, limit: nat): (cut: nat)
    requires limit < |seg|
    ensures cut <= limit + 1
    ensures cut == limit + 1 <==> seg[limit] == '.'
    ensures PeriodNear(seg, limit) ==> 1 <= cut && seg[cut - 1] == '.' && NoneIn(seg, '.', cut, limit + 1)
    ensures !PeriodNear(seg, limit) && limit >= 99 && SpaceUpTo(seg, limit) ==>
              cut <= limit && seg[cut] == ' ' && NoneIn(seg, ' ', cut + 1, limit + 1)
    ensures !PeriodNear(seg, limit) && limit >= 99 && !SpaceUpTo(seg, limit) ==> cut == limit
    ensures !PeriodNear(seg, limit) && limit < 99 ==> cut == 0
  {
    var lastPeriod := LastIndexOf(seg, '.', limit);
    var lastSpace := LastIndexOf(seg, ' ', limit);
    if lastPeriod > limit - 100 then lastPeriod + 1
    else if lastSpace != -1 then lastSpace
    else limit
  }

  function Prepend(chunk: string, o: Outcome): Outcome {
    match o
    case Chunks(cs) => Chunks([chunk] + cs)
    case NeverEnds => NeverEnds
  }

  /** Running one loop after another: the second only if the first ends. */
  function Append(a: Outcome, b: Outcome): Outcome {
    match a
    case NeverEnds => NeverEnds
    case Chunks(x) =>
      match b
      case NeverEnds => NeverEnds
      case Chunks(y) => Chunks(x + y)
  }

  /** A step that does not shorten the segment leaves it exactly as it was. */
  lemma NoProgressUnchanged(seg: string, cut: nat)
    requires cut <= |seg| && |Trim(seg[cut..])| >= |seg|
    ensures cut == 0 && Trim(seg[cut..]) == seg
  {
    assert seg[0..] == seg;
  }

  /** The inner `while` loop of `splitText` on one trimmed segment. */
  function SegmentChunks(seg: string, limit: nat): Outcome
    decreases |seg|
  {
    if |seg| == 0 then Chunks([])
    else if |seg| <= limit then Chunks([seg])
    else
      var cut := SliceEnd(seg, limit);
      var rest := Trim(seg[cut..]);
      if |rest| >= |seg| then NeverEnds
      else Prepend(seg[..cut], SegmentChunks(rest, limit))
  }

  /** The `forEach` over the manual segments, each trimmed first. */
  function ChunkSegments(segs: seq<string>, limit: nat): Outcome {
    if segs == [] then Chunks([])
    else Append(SegmentChunks(Trim(segs[0]), limit), ChunkSegments(segs[1..], limit))
  }

  /** What `splitText(text)` yields for an effective limit `limit`. */
  function Chunked(text: string, limit: nat): Outcome {
    ChunkSegments(Split(text, ManualBreak), limit)
  }

  lemma AppendAssoc(a: Outcome, b: Outcome, c: Outcome)
    ensures Append(Append(a, b), c) == Append(a, Append(b, c))
  {
    if a.Chunks? && b.Chunks? && c.Chunks? {
      assert (a.chunks + b.chunks) + c.chunks == a.chunks + (b.chunks + c.chunks);
    }
  }

  lemma AppendPrepend(cs: seq<string>, chunk: string, o: Outcome)
    ensures Append(Chunks(cs), Prepend(chunk, o)) == Append(Chunks(cs + [chunk]), o)
  {
    if o.Chunks? {
      assert cs + ([chunk] + o.chunks) == (cs + [chunk]) + o.chunks;
    }
  }

  /** One pass of the `forEach`: the chunks of the first segment are pushed,
      or, when its loop never ends, neither does `splitText`. */
  lemma SegmentsStep(chunks: seq<string>, segs: seq<string>, limit: nat)
    requires segs != []
    ensures SegmentChunks(Trim(segs[0]), limit).NeverEnds? ==> ChunkSegments(segs, limit) == NeverEnds
    ensures SegmentChunks(Trim(segs[0]), limit).Chunks? ==>
              Append(Chunks(chunks), ChunkSegments(segs, limit))
              == Append(Chunks(chunks + SegmentChunks(Trim(segs[0]), limit).chunks), ChunkSegments(segs[1..], limit))
  {
    var pushed := SegmentChunks(Trim(segs[0]), limit);
    AppendAssoc(Chunks(chunks), pushed, ChunkSegments(segs[1..], limit));
  }

  /** `splitText` as written: the `forEach` over the manual segments, each
      handed to the loop of `ChunkSegment`, the chunks collected in order. */
  method SplitText(text: string, parsedLimit: Option<int>) returns (o: Outcome)
    ensures o == Chunked(text, EffectiveLimit(parsedLimit))
  {
    var charLimit := EffectiveLimit(parsedLimit);
    var chunks: seq<string> := [];
    var manualChunks := Split(text, ManualBreak);
    assert manualChunks[0..] == manualChunks;
    for k := 0 to |manualChunks|
      invariant Append(Chunks(chunks), ChunkSegments(manualChunks[k..], charLimit)) == Chunked(text, charLimit)
    {
      assert manualChunks[k..][1..] == manualChunks[k + 1..];
      SegmentsStep(chunks, manualChunks[k..], charLimit);
      var pushed := ChunkSegment(manualChunks[k], charLimit);
      if pushed.NeverEnds? {
        return NeverEnds;
      }
      chunks := chunks + pushed.chunks;
    }
    assert manualChunks[|manualChunks|..] == [];
    o := Chunks(chunks);
  }

  /** One pass of the inner loop on a segment longer than the limit: the loop
      either stalls, or pushes the chunk before the cut and goes on with the
      trimmed, strictly shorter rest. */
  lemma SegmentStep(chunks: seq<string>, seg: string, limit: nat)
    requires |seg| > limit
    ensures var cut := SliceEnd(seg, limit);
      var rest := Trim(seg[cut..]);
      && (|rest| >= |seg| ==> SegmentChunks(seg, limit) == NeverEnds)
      && (|rest| < |seg| ==>
            Append(Chunks(chunks), SegmentChunks(seg, limit))
               == Append(Chunks(chunks + [seg[..cut]]), SegmentChunks(rest, limit)))
  {
    var cut := SliceEnd(seg, limit);
    var rest := Trim(seg[cut..]);
    if |rest| < |seg| {
      AppendPrepend(chunks, seg[..cut], SegmentChunks(rest, limit));
    }
  }

  /** The last pass of the inner loop: a segment that fits is pushed whole. */
  lemma SegmentFits(chunks: seq<string>, seg: string, limit: nat)
    requires 0 < |seg| <= limit
    ensures Append(Chunks(chunks), SegmentChunks(seg, limit)) == Chunks(chunks + [seg])
  {
  }

  /** The choice of `sliceEnd` inside the loop, as the source writes it: the
      imperative form of `SliceEnd`, whose contract says what the cut is. */
  method CutPoint(manualChunk: string, charLimit: nat) returns (sliceEnd: nat)
    requires charLimit < |manualChunk|
    ensures sliceEnd == SliceEnd(manualChunk, charLimit)
  {
    sliceEnd := charLimit;
    var lastPeriod := LastIndexOf(manualChunk, '.', sliceEnd);
    var lastSpace := LastIndexOf(manualChunk, ' ', sliceEnd);
    if lastPeriod > charLimit - 100 {
      sliceEnd := lastPeriod + 1;
    } else if lastSpace != -1 {
      sliceEnd := lastSpace;
    }
  }

  /** The body of the `forEach` callback: trim the segment, then peel chunks off
      its front until the rest fits. A step that leaves the segment unchanged
      ends the model with `NeverEnds`, where the source would push empty chunks
      forever. */
  method ChunkSegment(segment: string, charLimit: nat) returns (o: Outcome)
    ensures o == SegmentChunks(Trim(segment), charLimit)
  {
    var chunks: seq<string> := [];
    var manualChunk := Trim(segment);
    ghost var goal := SegmentChunks(manualChunk, charLimit);
    while |manualChunk| > 0
      invariant Append(Chunks(chunks), SegmentChunks(manualChunk, charLimit)) == goal
      decreases |manualChunk|
    {
      if |manualChunk| <= charLimit {
        SegmentFits(chunks, manualChunk, charLimit);
        chunks := chunks + [manualChunk];
        return Chunks(chunks);
      }
      var sliceEnd := CutPoint(manualChunk, charLimit);
      SegmentStep(chunks, manualChunk, charLimit);
      var chunk := manualChunk[..sliceEnd];
      var rest := Trim(manualChunk[sliceEnd..]);
      if |rest| >= |manualChunk| {
        return NeverEnds;
      }
      manualChunk := rest;
      chunks := chunks + [chunk];
    }
    assert SegmentChunks(manualChunk, charLimit) == Chunks([]);
    assert chunks + [] == chunks;
    return Chunks(chunks);
  }

  // ---------------------------------------------------------------------------
  // One step of the loop

  /** The gap `splitText` drops after cutting at `cut`: the whitespace that
      `trim` removes from the front of the remainder. */
  lemma {:induction false} PeelShape(seg: string, cut: nat)
    requires Trimmed(seg) && cut <= |seg|
    ensures var rest := Trim(seg[cut..]);
      && |rest| <= |seg| - cut
      && seg == seg[..cut] + seg[cut..|seg| - |rest|] + rest
      && AllWhitespace(seg[cut..|seg| - |rest|])
      && Trimmed(rest)
  {
    if cut == |seg| {
      assert seg[cut..] == [] && seg[..cut] == seg;
    } else {
      PeelGap(seg, cut, seg[cut..]);
    }
  }

  /** `PeelShape` when something follows the cut: that remainder ends as the
      segment does, so `trim` drops whitespace at its front only. */
  lemma PeelGap(seg: string, cut: nat, x: string)
    requires Trimmed(seg) && cut < |seg| && x == seg[cut..]
    ensures var rest := Trim(x);
      && seg == seg[..cut] + seg[cut..|seg| - |rest|] + rest
      && AllWhitespace(seg[cut..|seg| - |rest|])
  {
    var rest := Trim(x);
    assert x[|x| - 1] == seg[|seg| - 1];
    TrimSplit(x);
    var gap := seg[cut..|seg| - |rest|];
    assert gap == x[..|x| - |rest|];
    assert seg == seg[..cut] + x;
    Assoc(seg[..cut], gap, rest);
  }


  /** With a limit of at least 99, or with a `.` near the limit, a step peels a
      non-empty chunk: the segment is `chunk ++ gap ++ rest` with `gap` all
      whitespace, and the rest is trimmed and strictly shorter. */
  lemma StepProgresses(seg: string, limit: nat)
    requires Trimmed(seg) && limit < |seg|
    requires limit >= 99 || PeriodNear(seg, limit)
    ensures var cut := SliceEnd(seg, limit);
      var chunk := seg[..cut];
      var rest := Trim(seg[cut..]);
      && chunk != []
      && seg == chunk + seg[cut..|seg| - |rest|] + rest
      && AllWhitespace(seg[cut..|seg| - |rest|])
      && Trimmed(rest) && |rest| < |seg|
  {
    var cut := SliceEnd(seg, limit);
    if !PeriodNear(seg, limit) && SpaceUpTo(seg, limit) {
      assert seg[cut] == ' ';
      assert cut != 0;
    }
    PeelShape(seg, cut);
  }

  /** With a limit of at most 98 and no `.` at indices `0 .. limit`, a step
      emits the empty chunk and leaves the segment as it was: the source's loop
      never ends. */
  lemma StepStalls(seg: string, limit: nat)
    requires Trimmed(seg) && limit < |seg| && limit <= 98
    requires forall i :: 0 <= i <= limit ==> seg[i] != '.'
    ensures SliceEnd(seg, limit) == 0
    ensures seg[..SliceEnd(seg, limit)] == ""
    ensures Trim(seg[SliceEnd(seg, limit)..]) == seg
    ensures SegmentChunks(seg, limit) == NeverEnds
  {
    assert seg[0..] == seg;
    TrimOfTrimmed(seg);
  }

  // ---------------------------------------------------------------------------
  // The loop as a whole

  /** A trimmed segment is chunked without end whenever the limit is at least 99. */
  lemma {:induction false} SegmentEnds(seg: string, limit: nat)
    requires Trimmed(seg) && limit >= 99
    ensures SegmentChunks(seg, limit).Chunks?
    decreases |seg|
  {
    if |seg| > limit {
      StepProgresses(seg, limit);
      SegmentEnds(Trim(seg[SliceEnd(seg, limit)..]), limit);
    }
  }

  lemma {:induction false} SegmentsEnd(segs: seq<string>, limit: nat)
    requires limit >= 99
    ensures ChunkSegments(segs, limit).Chunks?
  {
    if segs != [] {
      SegmentEnds(Trim(segs[0]), limit);
      SegmentsEnd(segs[1..], limit);
    }
  }

  /** `splitText` returns for every text once the limit is at least 99
      (the default 500 included). */
  lemma ChunkedEnds(text: string, limit: nat)
    requires limit >= 99
    ensures Chunked(text, limit).Chunks?
  {
    SegmentsEnd(Split(text, ManualBreak), limit);
  }

  /** The chunks with the whitespace dropped between them put back. */
  function Weave(chunks: seq<string>, gaps: seq<string>): string
    requires |gaps| + 1 >= |chunks|
  {
    if chunks == [] then ""
    else if |chunks| == 1 then chunks[0]
    else chunks[0] + gaps[0] + Weave(chunks[1..], gaps[1..])
  }

  lemma WeaveCons(chunk: string, gap: string, more: seq<string>, gaps: seq<string>)
    requires more != [] && |gaps| + 1 >= |more|
    ensures Weave([chunk] + more, [gap] + gaps) == chunk + gap + Weave(more, gaps)
  {
    assert ([chunk] + more)[1..] == more && ([gap] + gaps)[1..] == gaps;
  }

  /** A step on a trimmed segment that changes it cuts at least one character. */
  lemma StepMoves(seg: string, limit: nat)
    requires Trimmed(seg) && limit < |seg|
    requires |Trim(seg[SliceEnd(seg, limit)..])| < |seg|
    ensures SliceEnd(seg, limit) >= 1
  {
    if SliceEnd(seg, limit) == 0 {
      assert seg[0..] == seg;
      TrimOfTrimmed(seg);
    }
  }

  /** The whitespace the loop drops between each chunk and the next: what
      `trim` removes from the front of the remainder after each cut. */
  ghost function DroppedGaps(seg: string, limit: nat): seq<string>
    decreases |seg|
  {
    if |seg| <= limit then []
    else
      var cut := SliceEnd(seg, limit);
      var rest := Trim(seg[cut..]);
      if |rest| >= |seg| || cut + |rest| > |seg| || rest == [] then []
      else [seg[cut..|seg| - |rest|]] + DroppedGaps(rest, limit)
  }

  /** One step of the loop on a trimmed segment longer than the limit, when the
      loop ends: the first chunk, then the dropped gap, then what is left. */
  lemma {:induction false} RebuildStep(seg: string, limit: nat)
    requires Trimmed(seg) && |seg| > limit && SegmentChunks(seg, limit).Chunks?
    ensures var cut := SliceEnd(seg, limit);
      var rest := Trim(seg[cut..]);
      && cut >= 1 && |rest| < |seg| && Trimmed(rest)
      && SegmentChunks(rest, limit).Chunks?
      && SegmentChunks(seg, limit).chunks == [seg[..cut]] + SegmentChunks(rest, limit).chunks
      && AllWhitespace(seg[cut..|seg| - |rest|])
      && seg == seg[..cut] + seg[cut..|seg| - |rest|] + rest
      && DroppedGaps(seg, limit) == (if rest == [] then [] else [seg[cut..|seg| - |rest|]] + DroppedGaps(rest, limit))
  {
    var cut := SliceEnd(seg, limit);
    StepMoves(seg, limit);
    PeelShape(seg, cut);
  }

  /** Whenever the loop ends on a trimmed segment, its chunks are non-empty,
      and the chunks with the dropped whitespace between each two of them
      rebuild the segment exactly. */
  lemma {:induction false} SegmentRebuilds(seg: string, limit: nat)
    requires Trimmed(seg) && SegmentChunks(seg, limit).Chunks?
    ensures var cs := SegmentChunks(seg, limit).chunks;
      var gaps := DroppedGaps(seg, limit);
      && (forall c :: c in cs ==> c != [])
      && (forall g :: g in gaps ==> AllWhitespace(g))
      && |gaps| + 1 >= |cs|
      && Weave(cs, gaps) == seg
    decreases |seg|
  {
    if |seg| > limit {
      var cut := SliceEnd(seg, limit);
      var rest := Trim(seg[cut..]);
      RebuildStep(seg, limit);
      SegmentRebuilds(rest, limit);
      var chunk, gap := seg[..cut], seg[cut..|seg| - |rest|];
      var more, gs := SegmentChunks(rest, limit).chunks, DroppedGaps(rest, limit);
      if rest == [] {
        assert more == [];
        assert seg == chunk;
      } else {
        WeaveCons(chunk, gap, more, gs);
      }
    } else {
      assert DroppedGaps(seg, limit) == [];
      assert SegmentChunks(seg, limit).chunks == if seg == [] then [] else [seg];
    }
  }

  /** Every chunk of a segment has at most `limit + 1` characters, and one of
      exactly `limit + 1` ends with the `.` that sat at index `limit`. */
  lemma {:induction false} SegmentChunkSizes(seg: string, limit: nat)
    requires Trimmed(seg) && SegmentChunks(seg, limit).Chunks?
    ensures forall c :: c in SegmentChunks(seg, limit).chunks ==>
              1 <= |c| <= limit + 1 && (|c| == limit + 1 ==> c[limit] == '.')
    decreases |seg|
  {
    if |seg| > limit {
      var cut := SliceEnd(seg, limit);
      var rest := Trim(seg[cut..]);
      StepMoves(seg, limit);
      PeelShape(seg, cut);
      SegmentChunkSizes(rest, limit);
    }
  }

  lemma {:induction false} SegmentsChunkSizes(segs: seq<string>, limit: nat)
    requires ChunkSegments(segs, limit).Chunks?
    ensures forall c :: c in ChunkSegments(segs, limit).chunks ==>
              1 <= |c| <= limit + 1 && (|c| == limit + 1 ==> c[limit] == '.')
  {
    if segs != [] {
      SegmentChunkSizes(Trim(segs[0]), limit);
      SegmentsChunkSizes(segs[1..], limit);
    }
  }

  /** The size bound over the whole text. */
  lemma ChunkSizes(text: string, limit: nat)
    requires Chunked(text, limit).Chunks?
    ensures forall c :: c in Chunked(text, limit).chunks ==>
              1 <= |c| <= limit + 1 && (|c| == limit + 1 ==> c[limit] == '.')
  {
    SegmentsChunkSizes(Split(text, ManualBreak), limit);
  }

  // ---------------------------------------------------------------------------
  // Manual breaks

  /** The trimmed segments that are not empty, in order. */
  function NonEmptyTrimmed(segs: seq<string>): (r: seq<string>)
    ensures |r| <= |segs|
  {
    if segs == [] then []
    else if Trim(segs[0]) == [] then NonEmptyTrimmed(segs[1..])
    else [Trim(segs[0])] + NonEmptyTrimmed(segs[1..])
  }

  /** When every manual segment fits the limit after trimming, the chunks are
      exactly the trimmed segments, in order, with the empty ones left out. */
  lemma {:induction false} ShortSegments(segs: seq<string>, limit: nat)
    requires forall k :: 0 <= k < |segs| ==> |Trim(segs[k])| <= limit
    ensures ChunkSegments(segs, limit) == Chunks(NonEmptyTrimmed(segs))
  {
    if segs != [] {
      ShortSegments(segs[1..], limit);
    }
  }

  /** Blank input (whitespace and nothing else) gives no chunks at all. */
  lemma BlankInput(text: string, limit: nat)
    requires AllWhitespace(text)
    ensures Chunked(text, limit) == Chunks([])
  {
    var segs := Split(text, ManualBreak);
    JoinBlank(segs, ManualBreak);
    forall k | 0 <= k < |segs| ensures Trim(segs[k]) == [] {
      TrimEmptyIffBlank(segs[k]);
    }
    ShortSegments(segs, limit);
    BlankNonEmpty(segs);
  }

  lemma {:induction false} BlankNonEmpty(segs: seq<string>)
    requires forall k :: 0 <= k < |segs| ==> Trim(segs[k]) == []
    ensures NonEmptyTrimmed(segs) == []
  {
    if segs != [] {
      BlankNonEmpty(segs[1..]);
    }
  }

  lemma SplitManualExample()
    ensures Split("A===B", ManualBreak) == ["A", "B"]
  {
    var text := "A===B";
    assert text[0..3][0] == 'A';
    assert text[1..4] == ManualBreak;
    assert IndexOf(text, ManualBreak, 0) == 1;
    assert text[..1] == "A";
    assert text[1 + |ManualBreak|..] == "B";
    assert IndexOf("B", ManualBreak, 0) == -1;
  }

  /** A manual break is a hard split, whatever the limit. */
  lemma ManualBreakExample(limit: nat)
    requires limit >= 1
    ensures Chunked("A===B", limit) == Chunks(["A", "B"])
  {
    var segs := ["A", "B"];
    SplitManualExample();
    TrimOfTrimmed("A");
    TrimOfTrimmed("B");
    assert NonEmptyTrimmed(segs) == segs by {
      assert segs[1..] == ["B"] && NonEmptyTrimmed(["B"][1..]) == [];
    }
    ShortSegments(segs, limit);
  }

  /** Text without `=` holds no manual break: it is chunked as one segment. */
  lemma WithoutManualBreak(text: string, limit: nat)
    requires '=' !in text
    ensures Chunked(text, limit) == SegmentChunks(Trim(text), limit)
  {
    IndexOfAbsent(text, ManualBreak, 0);
    assert text[..|text|] == text;
    var segs := Split(text, ManualBreak);
    assert segs == [text];
    assert segs[0] == text && segs[1..] == [];
    var o := SegmentChunks(Trim(text), limit);
    assert ChunkSegments(segs[1..], limit) == Chunks([]);
    assert ChunkSegments(segs, limit) == Append(o, Chunks([]));
    if o.Chunks? {
      assert o.chunks + [] == o.chunks;
    }
  }

  /** A segment of at most twice the limit with no whitespace and no `.`
      at all is cut hard at the limit, once. */
  lemma HardCut(seg: string, limit: nat)
    requires 99 <= limit < |seg| <= 2 * limit
    requires forall i :: 0 <= i < |seg| ==> !IsWhitespace(seg[i]) && seg[i] != '.'
    ensures SegmentChunks(seg, limit) == Chunks([seg[..limit], seg[limit..]])
  {
    assert !PeriodNear(seg, limit);
    assert !SpaceUpTo(seg, limit);
    assert SliceEnd(seg, limit) == limit;
    var rest := seg[limit..];
    assert rest[0] == seg[limit] && rest[|rest| - 1] == seg[|seg| - 1];
    TrimOfTrimmed(rest);
    assert SegmentChunks(rest, limit) == Chunks([rest]);
  }

  /** 600 letters without a space or a `.` and the limit 500: a hard cut at 500,
      then the remaining 100. */
  lemma HardBreakExample()
    ensures var text := seq(600, _ => 'a');
      Chunked(text, 500) == Chunks([text[..500], text[500..]])
  {
    var text := seq(600, _ => 'a');
    assert forall i :: 0 <= i < |text| ==> text[i] == 'a';
    assert '=' !in text;
    WithoutManualBreak(text, 500);
    TrimOfTrimmed(text);
    HardCut(text, 500);
  }
}

=== FILE: entities.dfy ===
/**
 * The four regular expressions of `processLine` (script.js), written out as
 * scanners over a line: what each pattern matches when tried at one index,
 * with the backtracking of JavaScript's regex engine made explicit, and the
 * global `exec` loop that resumes at the end of each match.
 */
module Entities {
  import opened Options
  import opened Text

  /** The four kinds of entity, in the order `processLine` scans for them. */
  datatype Kind = Url | FullMention | SimpleMention | Hashtag

  /** One entry of `processedRegions`: the span `[start, end)` of the line, the
      kind, the matched text and the link markup that replaces it. */
  datatype Region = Region(start: nat, end: nat, kind: Kind, content: string, html: string)

  /** The instance that simple mentions and hashtags link to. */
  const DefaultInstance := "https://mastodon.social"

  /** The markup every region is replaced with: a link opening in a new tab. */
  function Link(href: string, text: string): string {
    "<a href=\"" + href + "\" target=\"_blank\">" + text + "</a>"
  }

  /** The character classes the patterns repeat. */
  datatype CharClass = Word | NonSpace | DomainChar | Lower

  predicate InClass(cls: CharClass, c: char) {
    match cls
    case Word => IsWordChar(c)
    case NonSpace => !IsWhitespace(c)
    case DomainChar => IsWordChar(c) || c == '.' || c == '-'
    case Lower => IsLower(c)
  }

  /** Where a greedy `cls+` or `cls*` starting at `i` stops: the end of the
      longest run of `cls` characters from `i`. */
  function RunEnd(line: string, i: nat, cls: CharClass): (e: nat)
    requires i <= |line|
    ensures i <= e <= |line|
    ensures forall j :: i <= j < e ==> InClass(cls, line[j])
    ensures e < |line| ==> !InClass(cls, line[e])
    decreases |line| - i
  {
    if i < |line| && InClass(cls, line[i]) then RunEnd(line, i + 1, cls) else i
  }

  /** A `.` at `k` followed by two lower-case letters: where `\.[a-z]{2,}` can start. */
  predicate TldAt(line: string, k: int) {
    0 <= k && k + 2 < |line| && line[k] == '.' && IsLower(line[k + 1]) && IsLower(line[k + 2])
  }

  /** The greatest `k` in `[lo, hi]` where `TldAt` holds, or -1: the split
      the backtracking of the greedy `[\w.-]+` finds first. */
  function LastTldDot(line: string, lo: nat, hi: int): (k: int)
    ensures k == -1 || (lo <= k <= hi && TldAt(line, k))
    ensures forall j :: lo <= j <= hi && k < j ==> !TldAt(line, j)
    decreases hi + 1 - lo
  {
    if hi < lo then -1
    else if TldAt(line, hi) then hi
    else LastTldDot(line, lo, hi - 1)
  }

  /** `/https?:\/\/[^\s]+/` tried at index `i`: the end of the match. Once `https://`
      is seen, backtracking over `s?` cannot help, since `:` would have to sit where `s` is. */
  function UrlEnd(line: string, i: nat): (m: Option<nat>)
    requires i <= |line|
    ensures m.Some? <==>
              || (OccursAt(line, "https://", i) && i + 8 < |line| && !IsWhitespace(line[i + 8]))
              || (OccursAt(line, "http://", i) && i + 7 < |line| && !IsWhitespace(line[i + 7]))
    ensures m.Some? ==> i + 8 <= m.value <= |line|
    ensures m.Some? ==> forall j :: i <= j < m.value ==> !IsWhitespace(line[j])
    ensures m.Some? ==> m.value == |line| || IsWhitespace(line[m.value])
  {
    if OccursAt(line, "https://", i) && i + 8 < |line| && !IsWhitespace(line[i + 8]) then
      assert line[i..i + 8] == "https://";
      assert forall j :: i <= j < i + 8 ==> line[j] == line[i..i + 8][j - i];
      Some(RunEnd(line, i + 8, NonSpace))
    else if OccursAt(line, "http://", i) && i + 7 < |line| && !IsWhitespace(line[i + 7]) then
      assert forall j :: i <= j < i + 7 ==> line[j] == line[i..i + 7][j - i];
      Some(RunEnd(line, i + 7, NonSpace))
    else
      None
  }

  /** `/@(\w+)@([\w.-]+\.[a-z]{2,})/` tried at index `i`: the end of the user
      name and the end of the match. The user run must be followed by `@`
      (a shorter run would be followed by a word character); the domain is
      the largest split of the `[\w.-]` run at a `.` followed by at least two
      lower-case letters, which the greedy `[a-z]{2,}` then extends. */
  function FullMentionEnd(line: string, i: nat): (m: Option<(nat, nat)>)
    requires i <= |line|
    ensures m.Some? ==> i < |line| && line[i] == '@'
    ensures m.Some? ==> var (w, e) := m.value;
              && i + 1 < w < e <= |line| && line[w] == '@'
              && (forall j :: i + 1 <= j < w ==> IsWordChar(line[j]))
              && (forall j :: w < j < e ==> InClass(DomainChar, line[j]))
              && (e == |line| || !IsLower(line[e]))
    ensures m.Some? ==> var (w, e) := m.value;
              w == RunEnd(line, i + 1, Word) && DomainEnd(line, w) == Some(e)
    ensures m.None? && i < |line| && line[i] == '@' ==>
              var w := RunEnd(line, i + 1, Word);
              w == i + 1 || w == |line| || line[w] != '@' || DomainEnd(line, w).None?
  {
    if i < |line| && line[i] == '@' then
      var w := RunEnd(line, i + 1, Word);
      if w == i + 1 || w == |line| || line[w] != '@' then None
      else
        match DomainEnd(line, w)
        case None => None
        case Some(e) => Some((w, e))
    else
      None
  }

  /** `([\w.-]+\.[a-z]{2,})` tried after the `@` at `w`: the end of the match.
      The `.` it splits at is the last one in the `[\w.-]` run that has two
      lower-case letters after it and at least one run character before it. */
  function DomainEnd(line: string, w: nat): (m: Option<nat>)
    requires w < |line|
    ensures m.Some? ==> var d := RunEnd(line, w + 1, DomainChar);
              exists k :: && w + 2 <= k < d && TldAt(line, k) && m.value == RunEnd(line, k + 1, Lower)
                          && forall j :: k < j < d ==> !TldAt(line, j)
    ensures m.Some? ==> && w + 1 < m.value <= |line|
                        && (forall j :: w < j < m.value ==> InClass(DomainChar, line[j]))
                        && (m.value == |line| || !IsLower(line[m.value]))
    ensures m.None? ==> forall j :: w + 2 <= j < RunEnd(line, w + 1, DomainChar) ==> !TldAt(line, j)
  {
    var d := RunEnd(line, w + 1, DomainChar);
    var k := LastTldDot(line, w + 2, d - 1);
    if k == -1 then None
    else
      var e := RunEnd(line, k + 1, Lower);
      assert forall j :: k + 1 <= j < e ==> InClass(DomainChar, line[j]);
      Some(e)
  }

  /** `/@(\w+)(?!@)/` tried at index `i`. When the longest word run is followed
      by `@`, the engine gives back its last character (which is not `@`), so
      a run of one character followed by `@` does not match at all. */
  function SimpleMentionEnd(line: string, i: nat): (m: Option<nat>)
    requires i <= |line|
    ensures m.Some? ==> i < |line| && line[i] == '@' && i + 2 <= m.value <= |line|
    ensures m.Some? ==> forall j :: i + 1 <= j < m.value ==> IsWordChar(line[j])
    ensures m.Some? ==> m.value == |line| || line[m.value] != '@'
    ensures m.Some? ==> var w := RunEnd(line, i + 1, Word);
              m.value == w || (m.value == w - 1 && w < |line| && line[w] == '@')
    ensures m.None? && i < |line| && line[i] == '@' ==>
              var w := RunEnd(line, i + 1, Word);
              w == i + 1 || (w == i + 2 && w < |line| && line[w] == '@')
  {
    if i < |line| && line[i] == '@' then
      var w := RunEnd(line, i + 1, Word);
      if w == i + 1 then None
      else if w < |line| && line[w] == '@' then (if w - 1 > i + 1 then Some(w - 1) else None)
      else Some(w)
    else
      None
  }

  /** `/#(\w+)/` tried at index `i`. */
  function HashtagEnd(line: string, i: nat): (m: Option<nat>)
    requires i <= |line|
    ensures m.Some? ==> i < |line| && line[i] == '#' && i + 2 <= m.value <= |line|
    ensures m.Some? ==> forall j :: i + 1 <= j < m.value ==> IsWordChar(line[j])
    ensures m.Some? ==> m.value == |line| || !IsWordChar(line[m.value])
    ensures m.None? && i < |line| && line[i] == '#' ==> i + 1 == |line| || !IsWordChar(line[i + 1])
  {
    if i < |line| && line[i] == '#' then
      var w := RunEnd(line, i + 1, Word);
      if w == i + 1 then None else Some(w)
    else
      None
  }

  /** The character every match of a kind starts with. */
  function Lead(kind: Kind): char {
    match kind
    case Url => 'h'
    case FullMention => '@'
    case SimpleMention => '@'
    case Hashtag => '#'
  }

  /** The pattern of `kind` tried at index `i`, as the region `processLine`
      would record for it. */
  function MatchAt(kind: Kind, line: string, i: nat): (m: Option<Region>)
    requires i <= |line|
    ensures m.Some? ==> && m.value.start == i && i < m.value.end <= |line|
                        && m.value.kind == kind && line[i] == Lead(kind)
                        && m.value.content == line[i..m.value.end]
  {
    match kind
    case Url =>
      (match UrlEnd(line, i)
       case None => None
       case Some(e) =>
         assert line[i..i + 4][0] == line[i];
         var url := line[i..e];
         Some(Region(i, e, Url, url, Link(url, url))))
    case FullMention =>
      (match FullMentionEnd(line, i)
       case None => None
       case Some((w, e)) =>
         var user, domain := line[i + 1..w], line[w + 1..e];
         Some(Region(i, e, FullMention, line[i..e], Link("https://" + domain + "/@" + user, line[i..e]))))
    case SimpleMention =>
      (match SimpleMentionEnd(line, i)
       case None => None
       case Some(e) =>
         var user := line[i + 1..e];
         Some(Region(i, e, SimpleMention, line[i..e], Link(DefaultInstance + "/@" + user, line[i..e]))))
    case Hashtag =>
      (match HashtagEnd(line, i)
       case None => None
       case Some(e) =>
         var tag := line[i + 1..e];
         Some(Region(i, e, Hashtag, line[i..e], Link(DefaultInstance + "/tags/" + tag, line[i..e]))))
  }

  /** `r` is what the pattern of `kind` matches at `r.start`. */
  predicate IsMatch(kind: Kind, line: string, r: Region) {
    r.start <= |line| && MatchAt(kind, line, r.start) == Some(r)
  }

  /** `regex.exec(line)` with `lastIndex == from`: the match at the first index
      at or after `from` where the pattern matches. */
  function NextMatch(kind: Kind, line: string, from: nat): (m: Option<Region>)
    requires from <= |line|
    ensures m.Some? ==> from <= m.value.start < |line| && IsMatch(kind, line, m.value)
    ensures forall i :: from <= i <= |line| && (m.None? || i < m.value.start) ==> MatchAt(kind, line, i).None?
    decreases |line| - from
  {
    if from == |line| then None
    else if MatchAt(kind, line, from).Some? then MatchAt(kind, line, from)
    else NextMatch(kind, line, from + 1)
  }

  /** The `while ((match = regex.exec(line)) !== null)` loop from `lastIndex ==
      from`: every match, each search resuming where the previous match ended.
      Each is the pattern's match at its own start, and they are in order and
      do not overlap. */
  function Scan(kind: Kind, line: string, from: nat): (rs: seq<Region>)
    requires from <= |line|
    ensures forall k :: 0 <= k < |rs| ==> from <= rs[k].start && IsMatch(kind, line, rs[k])
    ensures forall k :: 0 <= k < |rs| - 1 ==> rs[k].end <= rs[k + 1].start
    decreases |line| - from
  {
    match NextMatch(kind, line, from)
    case None => []
    case Some(r) =>
      var rest := Scan(kind, line, r.end);
      var rs := [r] + rest;
      assert rs[0] == r;
      assert rest != [] ==> r.end <= rest[0].start;
      rs
  }

  /** Index `i` lies in one of the regions. */
  predicate Covered(rs: seq<Region>, i: int) {
    exists k :: 0 <= k < |rs| && rs[k].start <= i < rs[k].end
  }

  lemma CoveredCons(r: Region, rs: seq<Region>, i: int)
    requires Covered(rs, i)
    ensures Covered([r] + rs, i)
  {
    var k :| 0 <= k < |rs| && rs[k].start <= i < rs[k].end;
    assert ([r] + rs)[k + 1] == rs[k];
  }

  /** Nothing the pattern matches is missed: every index where it would match
      is the start of a recorded match or lies inside one (skipped over by
      `lastIndex`). */
  lemma {:induction false} ScanCovers(kind: Kind, line: string, from: nat, i: nat)
    requires from <= i <= |line| && MatchAt(kind, line, i).Some?
    ensures Covered(Scan(kind, line, from), i)
    decreases |line| - from
  {
    var r := NextMatch(kind, line, from).value;
    var rest := Scan(kind, line, r.end);
    assert Scan(kind, line, from) == [r] + rest;
    if i >= r.end {
      ScanCovers(kind, line, r.end, i);
      CoveredCons(r, rest, i);
    } else {
      assert ([r] + rest)[0] == r;
    }
  }

  /** A line with no lead character of `kind` at or after `from` yields no match. */
  lemma NoLeadScan(kind: Kind, line: string, from: nat)
    requires from <= |line|
    requires forall i :: from <= i < |line| ==> line[i] != Lead(kind)
    ensures Scan(kind, line, from) == []
  {
  }

  /** The run of `cls` from `i` ends at `e` when `e` is where it first breaks. */
  lemma RunEndIs(line: string, i: nat, cls: CharClass, e: nat)
    requires i <= e <= |line|
    requires forall j :: i <= j < e ==> InClass(cls, line[j])
    requires e == |line| || !InClass(cls, line[e])
    ensures RunEnd(line, i, cls) == e
  {
  }

  /** `k` is the last split when nothing after it up to `hi` is one. */
  lemma LastTldDotIs(line: string, lo: nat, hi: int, k: nat)
    requires lo <= k <= hi && TldAt(line, k)
    requires forall j :: k < j <= hi ==> !TldAt(line, j)
    ensures LastTldDot(line, lo, hi) == k
  {
  }

  /** A pattern that matches nowhere from `from` on yields no match. */
  lemma NoMatchScan(kind: Kind, line: string, from: nat)
    requires from <= |line|
    requires forall i :: from <= i <= |line| ==> MatchAt(kind, line, i).None?
    ensures Scan(kind, line, from) == []
  {
  }

  /** Text without `:` holds no URL, since `http://` and `https://` both contain one. */
  lemma NoColonNoUrl(line: string, i: nat)
    requires i <= |line| && ':' !in line
    ensures MatchAt(Url, line, i).None?
  {
    if i + 7 <= |line| {
      assert line[i..i + 7][4] == line[i + 4];
    }
    if i + 8 <= |line| {
      assert line[i..i + 8][5] == line[i + 5];
    }
  }

  /** A line laid out as `@user@name.tld` (the second `@` at `w`, the last `.`
      at `dot`), with a word-character user name, a domain name of `[\w.-]`
      characters and a lower-case top-level domain of at least two letters,
      is one full mention spanning the whole line, linking to the account
      `user` on the instance `name.tld`. */
  lemma FullMentionWhole(line: string, w: nat, dot: nat)
    requires 1 < w && w + 1 < dot && dot + 2 < |line|
    requires line[0] == '@' && line[w] == '@' && line[dot] == '.'
    requires forall j :: 1 <= j < w ==> IsWordChar(line[j])
    requires forall j :: w < j < dot ==> InClass(DomainChar, line[j])
    requires forall j :: dot < j < |line| ==> IsLower(line[j])
    ensures MatchAt(FullMention, line, 0)
            == Some(Region(0, |line|, FullMention, line, Link("https://" + line[w + 1..] + "/@" + line[1..w], line)))
  {
    FullMentionEndWhole(line, w, dot);
    assert line[0..|line|] == line && line[w + 1..|line|] == line[w + 1..];
  }

  lemma FullMentionEndWhole(line: string, w: nat, dot: nat)
    requires 1 < w && w + 1 < dot && dot + 2 < |line|
    requires line[0] == '@' && line[w] == '@' && line[dot] == '.'
    requires forall j :: 1 <= j < w ==> IsWordChar(line[j])
    requires forall j :: w < j < dot ==> InClass(DomainChar, line[j])
    requires forall j :: dot < j < |line| ==> IsLower(line[j])
    ensures FullMentionEnd(line, 0) == Some((w, |line|))
  {
    var n := |line|;
    RunEndIs(line, 1, Word, w);
    RunEndIs(line, w + 1, DomainChar, n);
    LastTldDotIs(line, w + 2, n - 1, dot);
    RunEndIs(line, dot + 1, Lower, n);
  }

  /** Text without `:` or `#` yields neither URLs nor hashtags. */
  lemma NoUrlNoHashtag(line: string)
    requires ':' !in line && '#' !in line
    ensures Scan(Url, line, 0) == [] && Scan(Hashtag, line, 0) == []
  {
    forall i | 0 <= i <= |line|
      ensures MatchAt(Url, line, i).None?
    {
      NoColonNoUrl(line, i);
    }
    NoMatchScan(Url, line, 0);
    NoLeadScan(Hashtag, line, 0);
  }

  /** A line laid out as in `FullMentionWhole` holds no `:` and no `#`. */
  lemma MentionCharacters(line: string, w: nat, dot: nat)
    requires 1 < w && w + 1 < dot && dot + 2 < |line|
    requires line[0] == '@' && line[w] == '@' && line[dot] == '.'
    requires forall j :: 1 <= j < w ==> IsWordChar(line[j])
    requires forall j :: w < j < dot ==> InClass(DomainChar, line[j])
    requires forall j :: dot < j < |line| ==> IsLower(line[j])
    ensures ':' !in line && '#' !in line
  {
    forall j | 0 <= j < |line|
      ensures line[j] != ':' && line[j] != '#'
    {
      if j == 0 || j == w || j == dot {
      } else if j < w {
        assert IsWordChar(line[j]);
      } else if j < dot {
        assert InClass(DomainChar, line[j]);
      } else {
        assert IsLower(line[j]);
      }
    }
  }

  /** A match spanning from index 0 to the end of the line is all the scan finds. */
  lemma WholeLineScan(kind: Kind, line: string, r: Region)
    requires MatchAt(kind, line, 0) == Some(r) && r.end == |line|
    ensures Scan(kind, line, 0) == [r]
  {
    assert Scan(kind, line, |line|) == [];
  }
}

=== FILE: escape.dfy ===
/**
 * `escapeHTML` (script.js): five chained global replacements, ampersand
 * first, used to put a post's text into the `data-text` attribute of its
 * copy button.
 */
module Escape {
  const Amp := "&amp;"
  const Quot := "&quot;"
  const Apos := "&#39;"
  const Lt := "&lt;"
  const Gt := "&gt;"

  /** `s.replace(/c/g, rep)`: every occurrence of `c`, left to right, replaced by `rep`. */
  function ReplaceAll(s: string, c: char, rep: string): (r: string)
    ensures c !in s ==> r == s
    ensures c !in rep ==> c !in r
  {
    if s == [] then ""
    else (if s[0] == c then rep else [s[0]]) + ReplaceAll(s[1..], c, rep)
  }

  /** `escapeHTML(text)` exactly as chained in the source. */
  function EscapeHtml(s: string): string {
    ReplaceAll(ReplaceAll(ReplaceAll(ReplaceAll(ReplaceAll(s, '&', Amp), '"', Quot), '\'', Apos), '<', Lt), '>', Gt)
  }

  predicate IsSpecial(c: char) {
    c == '&' || c == '"' || c == '\'' || c == '<' || c == '>'
  }

  /** The entity that stands for one character (the character itself when it is not special). */
  function EscapeChar(c: char): string {
    if c == '&' then Amp
    else if c == '"' then Quot
    else if c == '\'' then Apos
    else if c == '<' then Lt
    else if c == '>' then Gt
    else [c]
  }

  /** The reference definition: one substitution per character, in a single pass. */
  function EscapeEach(s: string): string {
    if s == [] then "" else EscapeChar(s[0]) + EscapeEach(s[1..])
  }

  lemma {:induction false} ReplaceAllConcat(a: string, b: string, c: char, rep: string)
    ensures ReplaceAll(a + b, c, rep) == ReplaceAll(a, c, rep) + ReplaceAll(b, c, rep)
  {
    if a == [] {
      assert a + b == b;
    } else {
      assert (a + b)[1..] == a[1..] + b;
      ReplaceAllConcat(a[1..], b, c, rep);
    }
  }

  lemma {:induction false} EscapeHtmlConcat(a: string, b: string)
    ensures EscapeHtml(a + b) == EscapeHtml(a) + EscapeHtml(b)
  {
    var a1, b1 := ReplaceAll(a, '&', Amp), ReplaceAll(b, '&', Amp);
    ReplaceAllConcat(a, b, '&', Amp);
    var a2, b2 := ReplaceAll(a1, '"', Quot), ReplaceAll(b1, '"', Quot);
    ReplaceAllConcat(a1, b1, '"', Quot);
    var a3, b3 := ReplaceAll(a2, '\'', Apos), ReplaceAll(b2, '\'', Apos);
    ReplaceAllConcat(a2, b2, '\'', Apos);
    var a4, b4 := ReplaceAll(a3, '<', Lt), ReplaceAll(b3, '<', Lt);
    ReplaceAllConcat(a3, b3, '<', Lt);
    ReplaceAllConcat(a4, b4, '>', Gt);
  }

  lemma ReplaceAllSingle(c: char, d: char, rep: string)
    ensures ReplaceAll([c], d, rep) == if c == d then rep else [c]
  {
    assert [c][1..] == [];
  }

  /** The replacements after the first leave `e` alone when it holds none of their characters. */
  lemma ChainFrom(e: string, k: nat)
    requires 1 <= k <= 5
    requires k <= 1 ==> '"' !in e
    requires k <= 2 ==> '\'' !in e
    requires k <= 3 ==> '<' !in e
    requires k <= 4 ==> '>' !in e
    ensures k == 1 ==> ReplaceAll(ReplaceAll(ReplaceAll(ReplaceAll(e, '"', Quot), '\'', Apos), '<', Lt), '>', Gt) == e
    ensures k == 2 ==> ReplaceAll(ReplaceAll(ReplaceAll(e, '\'', Apos), '<', Lt), '>', Gt) == e
    ensures k == 3 ==> ReplaceAll(ReplaceAll(e, '<', Lt), '>', Gt) == e
    ensures k == 4 ==> ReplaceAll(e, '>', Gt) == e
  {
  }

  /** A one-character string goes through the chain to its own entity: no later
      replacement touches an entity an earlier one produced. */
  lemma EscapeHtmlChar(c: char)
    ensures EscapeHtml([c]) == EscapeChar(c)
  {
    var e1 := ReplaceAll([c], '&', Amp);
    ReplaceAllSingle(c, '&', Amp);
    if c == '&' {
      ChainFrom(Amp, 1);
      return;
    }
    var e2 := ReplaceAll(e1, '"', Quot);
    ReplaceAllSingle(c, '"', Quot);
    if c == '"' {
      ChainFrom(Quot, 2);
      return;
    }
    var e3 := ReplaceAll(e2, '\'', Apos);
    ReplaceAllSingle(c, '\'', Apos);
    if c == '\'' {
      ChainFrom(Apos, 3);
      return;
    }
    ReplaceAllSingle(c, '<', Lt);
    if c == '<' {
      ChainFrom(Lt, 4);
      return;
    }
    ReplaceAllSingle(c, '>', Gt);
  }

  /** The five chained replacements equal the single per-character substitution:
      ampersand goes first, so the entities produced are never escaped again. */
  lemma {:induction false} EscapeHtmlIsPerChar(s: string)
    ensures EscapeHtml(s) == EscapeEach(s)
  {
    if s != [] {
      assert s == [s[0]] + s[1..];
      EscapeHtmlConcat([s[0]], s[1..]);
      EscapeHtmlChar(s[0]);
      EscapeHtmlIsPerChar(s[1..]);
    }
  }

  /** `e` holds none of `<`, `>`, `"`, `'`. */
  predicate MarkupFree(e: string) {
    '<' !in e && '>' !in e && '"' !in e && '\'' !in e
  }

  lemma EscapeCharSafe(c: char)
    ensures MarkupFree(EscapeChar(c))
  {
  }

  lemma {:induction false} EscapeEachSafe(s: string)
    ensures MarkupFree(EscapeEach(s))
  {
    if s != [] {
      EscapeCharSafe(s[0]);
      EscapeEachSafe(s[1..]);
      var e, rest := EscapeChar(s[0]), EscapeEach(s[1..]);
      assert forall d :: d in e + rest ==> d in e || d in rest;
    }
  }

  /** The escaped text holds none of `<`, `>`, `"`, `'`. */
  lemma EscapeHtmlSafe(s: string)
    ensures '<' !in EscapeHtml(s) && '>' !in EscapeHtml(s)
    ensures '"' !in EscapeHtml(s) && '\'' !in EscapeHtml(s)
  {
    EscapeHtmlIsPerChar(s);
    EscapeEachSafe(s);
  }

  /** Text free of the five special characters is left as it is. */
  lemma {:induction false} EscapeHtmlIdentity(s: string)
    requires forall i :: 0 <= i < |s| ==> !IsSpecial(s[i])
    ensures EscapeHtml(s) == s
  {
    EscapeHtmlIsPerChar(s);
    EscapeEachIdentity(s);
  }

  lemma {:induction false} EscapeEachIdentity(s: string)
    requires forall i :: 0 <= i < |s| ==> !IsSpecial(s[i])
    ensures EscapeEach(s) == s
  {
    if s != [] {
      EscapeEachIdentity(s[1..]);
    }
  }

  predicate StartsWith(s: string, p: string) {
    |p| <= |s| && s[..|p|] == p
  }

  /** Decoding of the five character references that escaping produces: each
      reference becomes its character, every other character stays. */
  function DecodeEntities(s: string): string
    decreases |s|
  {
    if s == [] then ""
    else if StartsWith(s, Amp) then "&" + DecodeEntities(s[5..])
    else if StartsWith(s, Quot) then "\"" + DecodeEntities(s[6..])
    else if StartsWith(s, Apos) then "'" + DecodeEntities(s[5..])
    else if StartsWith(s, Lt) then "<" + DecodeEntities(s[4..])
    else if StartsWith(s, Gt) then ">" + DecodeEntities(s[4..])
    else [s[0]] + DecodeEntities(s[1..])
  }

  lemma DecodeOne(c: char, rest: string)
    ensures DecodeEntities(EscapeChar(c) + rest) == [c] + DecodeEntities(rest)
  {
    var e := EscapeChar(c) + rest;
    var n := |EscapeChar(c)|;
    assert e[..n] == EscapeChar(c) && e[n..] == rest;
    assert e[0] == EscapeChar(c)[0];
    if !IsSpecial(c) {
      assert e[0] == c && c != '&';
      assert !StartsWith(e, Amp) && !StartsWith(e, Quot) && !StartsWith(e, Apos);
      assert !StartsWith(e, Lt) && !StartsWith(e, Gt);
    } else if c != '&' {
      assert e[1] == EscapeChar(c)[1];
      assert !StartsWith(e, Amp);
      if c != '"' {
        assert !StartsWith(e, Quot);
        if c != '\'' {
          assert !StartsWith(e, Apos);
          if c != '<' {
            assert !StartsWith(e, Lt);
          }
        }
      }
    }
  }

  /** Escaping is undone by decoding the five character references. */
  lemma {:induction false} EscapeHtmlRoundTrip(s: string)
    ensures DecodeEntities(EscapeHtml(s)) == s
  {
    EscapeHtmlIsPerChar(s);
    EscapeEachRoundTrip(s);
  }

  lemma {:induction false} EscapeEachRoundTrip(s: string)
    ensures DecodeEntities(EscapeEach(s)) == s
  {
    if s != [] {
      DecodeOne(s[0], EscapeEach(s[1..]));
      EscapeEachRoundTrip(s[1..]);
    }
  }
}

=== FILE: formatter.dfy ===
/**
 * `formatChunk` (script.js): normalise CR and CRLF to LF, split into lines,
 * blank each whitespace-only line, run `processLine` on every other one and
 * join the results with `<br>`.
 */
module Formatter {
  import opened Text
  import opened Annotator

  const LineSeparator := "<br>"

  /** `replace(/\r\n|\r/g, '\n')`: the alternation tries `\r\n` before `\r`. */
  function NormalizeBreaks(s: string): (r: string)
    ensures '\r' !in r
    decreases |s|
  {
    if s == [] then []
    else if s[0] == '\r' then "\n" + NormalizeBreaks(if |s| > 1 && s[1] == '\n' then s[2..] else s[1..])
    else [s[0]] + NormalizeBreaks(s[1..])
  }

  /** The carriage returns that no line feed follows. */
  function LoneReturns(s: string): nat {
    if s == [] then 0
    else (if s[0] == '\r' && (|s| == 1 || s[1] != '\n') then 1 else 0) + LoneReturns(s[1..])
  }

  /** The line breaks of `s`: every `\n` (alone or after `\r`) and every lone `\r`. */
  function LineBreaks(s: string): nat {
    CountChar(s, '\n') + LoneReturns(s)
  }

  /** `s` with both line-break characters removed. */
  function Unbroken(s: string): string {
    if s == [] then []
    else (if s[0] == '\r' || s[0] == '\n' then [] else [s[0]]) + Unbroken(s[1..])
  }

  /** Each of `\r\n`, `\r` and `\n` becomes exactly one `\n`. */
  lemma {:induction false} NormalizeCountsBreaks(s: string)
    ensures CountChar(NormalizeBreaks(s), '\n') == LineBreaks(s)
    decreases |s|
  {
    if s != [] {
      var r := NormalizeBreaks(s);
      if s[0] == '\r' && |s| > 1 && s[1] == '\n' {
        NormalizeCountsBreaks(s[2..]);
        assert s[1..][1..] == s[2..];
        assert r[1..] == NormalizeBreaks(s[2..]);
        assert CountChar(s, '\n') == CountChar(s[1..], '\n') == 1 + CountChar(s[2..], '\n');
        assert LoneReturns(s) == LoneReturns(s[1..]) == LoneReturns(s[2..]);
      } else if s[0] == '\r' {
        NormalizeCountsBreaks(s[1..]);
        assert r[1..] == NormalizeBreaks(s[1..]);
      } else {
        NormalizeCountsBreaks(s[1..]);
        assert r[1..] == NormalizeBreaks(s[1..]);
      }
    }
  }

  lemma {:induction false} UnbrokenConcat(a: string, b: string)
    ensures Unbroken(a + b) == Unbroken(a) + Unbroken(b)
  {
    if a == [] {
      assert a + b == b;
    } else {
      assert (a + b)[1..] == a[1..] + b;
      UnbrokenConcat(a[1..], b);
    }
  }

  /** Normalising touches nothing but the line breaks. */
  lemma {:induction false} NormalizeKeepsText(s: string)
    ensures Unbroken(NormalizeBreaks(s)) == Unbroken(s)
    decreases |s|
  {
    if s != [] {
      var r := NormalizeBreaks(s);
      if s[0] == '\r' && |s| > 1 && s[1] == '\n' {
        NormalizeKeepsText(s[2..]);
        UnbrokenConcat("\n", NormalizeBreaks(s[2..]));
        assert s[1..][1..] == s[2..];
        assert Unbroken(s) == Unbroken(s[1..]) == Unbroken(s[2..]);
      } else if s[0] == '\r' {
        NormalizeKeepsText(s[1..]);
        UnbrokenConcat("\n", NormalizeBreaks(s[1..]));
      } else {
        NormalizeKeepsText(s[1..]);
        UnbrokenConcat([s[0]], NormalizeBreaks(s[1..]));
      }
    }
  }

  /** Text without carriage returns is already normal, so normalising twice
      is normalising once. */
  lemma {:induction false} NormalizeIdempotent(s: string)
    ensures NormalizeBreaks(NormalizeBreaks(s)) == NormalizeBreaks(s)
  {
    NormalizeWithoutReturns(NormalizeBreaks(s));
  }

  lemma {:induction false} NormalizeWithoutReturns(s: string)
    requires '\r' !in s
    ensures NormalizeBreaks(s) == s
    decreases |s|
  {
    if s != [] {
      assert '\r' !in s[1..];
      NormalizeWithoutReturns(s[1..]);
    }
  }

  /** Each line break becomes one `\n` in its own place. */
  lemma NormalizeBreakUnits()
    ensures NormalizeBreaks("\r\n") == "\n"
    ensures NormalizeBreaks("\r") == "\n"
    ensures NormalizeBreaks("\n") == "\n"
  {
    assert "\r\n"[2..] == [];
  }

  /** Every character other than `\r` is kept as it is. */
  lemma NormalizeKeepsChar(c: char)
    requires c != '\r'
    ensures NormalizeBreaks([c]) == [c]
  {
    assert [c][1..] == [];
  }

  /** Normalisation works piece by piece, as long as the cut does not split a
      `\r\n` pair. With `NormalizeBreakUnits` and `NormalizeKeepsChar` this
      fixes the normalised text of every input. */
  lemma {:induction false} NormalizeBreaksConcat(x: string, y: string)
    requires x == [] || y == [] || x[|x| - 1] != '\r' || y[0] != '\n'
    ensures NormalizeBreaks(x + y) == NormalizeBreaks(x) + NormalizeBreaks(y)
    decreases |x|
  {
    if x == [] {
      assert x + y == y;
    } else {
      var xy := x + y;
      if x[0] == '\r' && |x| > 1 && x[1] == '\n' {
        assert xy[1] == '\n' && xy[2..] == x[2..] + y;
        NormalizeBreaksConcat(x[2..], y);
        Assoc("\n", NormalizeBreaks(x[2..]), NormalizeBreaks(y));
      } else if x[0] == '\r' && |x| == 1 {
        assert xy[1..] == y;
        assert NormalizeBreaks(x) == "\n" by { assert x[1..] == []; }
      } else {
        assert xy[1..] == x[1..] + y;
        assert x[0] == '\r' ==> (|xy| == 1 || xy[1] != '\n');
        NormalizeBreaksConcat(x[1..], y);
        Assoc([xy[0]], NormalizeBreaks(x[1..]), NormalizeBreaks(y));
      }
    }
  }

  /** The break in `"a\rb"` lands between the two letters. */
  lemma NormalizeExample()
    ensures NormalizeBreaks("a\rb") == "a\nb"
  {
    NormalizeKeepsChar('a');
    NormalizeKeepsChar('b');
    NormalizeBreakUnits();
    NormalizeBreaksConcat("a", "\rb");
    NormalizeBreaksConcat("\r", "b");
    assert "a" + "\rb" == "a\rb" && "\r" + "b" == "\rb";
  }

  /** One line of the loop: `""` for a line that trims to nothing (one made of
      whitespace only), else `processLine` of the line. */
  function FormatLine(line: string): string {
    if AllWhitespace(line) then "" else Processed(line)
  }

  /** The lines of a chunk after normalisation. */
  function Lines(chunk: string): seq<string> {
    Split(NormalizeBreaks(chunk), "\n")
  }

  /** `f` applied to each line, in order. */
  function MapLines(f: string -> string, lines: seq<string>): (r: seq<string>)
    ensures |r| == |lines|
    ensures forall i :: 0 <= i < |lines| ==> r[i] == f(lines[i])
  {
    if |lines| == 0 then [] else
      var n := |lines| - 1;
      MapLines(f, lines[..n]) + [f(lines[n])]
  }

  /** Mapping one more line appends that line's image. */
  lemma MapLinesSnoc(f: string -> string, lines: seq<string>, line: string)
    ensures MapLines(f, lines + [line]) == MapLines(f, lines) + [f(line)]
  {
    assert (lines + [line])[..|lines|] == lines;
  }

  /** `FormatLine` on each line, in order. */
  function FormatLines(lines: seq<string>): (r: seq<string>)
    ensures |r| == |lines|
    ensures forall i :: 0 <= i < |lines| ==> r[i] == FormatLine(lines[i])
  {
    MapLines(FormatLine, lines)
  }

  /** `formatChunk(chunk)`. */
  function Formatted(chunk: string): string {
    Join(FormatLines(Lines(chunk)), LineSeparator)
  }

  /** A lone carriage return separates two lines, as a line feed does. */
  lemma LinesExample()
    ensures Lines("a\rb") == ["a", "b"]
  {
    NormalizeExample();
    var t := "a\nb";
    assert t[1..2] == "\n" && t[0..1] != "\n";
    assert IndexOf(t, "\n", 0) == 1;
    assert t[..1] == "a" && t[2..] == "b";
    assert IndexOf("b", "\n", 0) == -1;
  }

  /** A chunk has one line more than it has line breaks, and no line holds a
      line feed. */
  lemma LinesOfChunk(chunk: string)
    ensures |Lines(chunk)| == LineBreaks(chunk) + 1
    ensures forall k :: 0 <= k < |Lines(chunk)| ==> '\n' !in Lines(chunk)[k]
  {
    SplitCount(NormalizeBreaks(chunk), '\n');
    NormalizeCountsBreaks(chunk);
    forall k | 0 <= k < |Lines(chunk)|
      ensures '\n' !in Lines(chunk)[k]
    {
      NotContainsChar(Lines(chunk)[k], '\n');
    }
  }

  /** The `for (let line of lines)` loop pushing into `processedLines`, then the join. */
  method FormatChunk(chunk: string) returns (out: string)
    ensures out == Formatted(chunk)
  {
    var lines := Lines(chunk);  // the normalised chunk split at line feeds
    var processedLines: seq<string> := [];
    for k := 0 to |lines|
      invariant processedLines == FormatLines(lines[..k])
    {
      var line := lines[k];
      assert lines[..k + 1] == lines[..k] + [line];
      MapLinesSnoc(FormatLine, lines[..k], line);
      TrimEmptyIffBlank(line);
      if Trim(line) == [] {
        processedLines := processedLines + [""];
        continue;
      }
      var processedLine := ProcessLine(line);
      processedLines := processedLines + [processedLine];
    }
    assert lines[..|lines|] == lines;
    out := Join(processedLines, LineSeparator);
  }
}

=== FILE: options.dfy ===
/** A value that may be absent: a `parseInt` result that is NaN, a regex that does not match. */
module Options {

  datatype Option<+T> = None | Some(value: T)

}

=== FILE: posts.dfy ===
/**
 * The per-post values the input handler of script.js computes for each chunk
 * before it builds the preview: the character count, the formatted body, the
 * pagination text `\n<index + 1>/<total>` and the escaped text the copy
 * button carries.
 */
module Posts {
  import opened Options
  import opened Text
  import opened Escape
  import opened Formatter

  predicate IsDigit(c: char) {
    '0' <= c <= '9'
  }

  predicate AllDigits(s: string) {
    forall i :: 0 <= i < |s| ==> IsDigit(s[i])
  }

  function DigitChar(d: nat): (c: char)
    requires d < 10
    ensures IsDigit(c)
  {
    (48 + d) as char
  }

  function DigitValue(c: char): (d: nat)
    requires IsDigit(c)
    ensures d < 10 && DigitChar(d) == c
  {
    (c as int) - 48
  }

  /** A number in a template literal: its decimal digits, most significant
      first, without leading zeros. */
  function Decimal(n: nat): (s: string)
    ensures s != [] && AllDigits(s)
    ensures s[0] == '0' ==> n == 0
    decreases n
  {
    if n < 10 then [DigitChar(n)]
    else
      var high := Decimal(n / 10);
      var s := high + [DigitChar(n % 10)];
      assert forall i :: 0 <= i < |high| ==> s[i] == high[i];
      s
  }

  /** The value of a string of decimal digits. */
  function ParseDecimal(s: string): nat
    requires AllDigits(s)
    decreases |s|
  {
    if s == [] then 0
    else ParseDecimal(s[..|s| - 1]) * 10 + DigitValue(s[|s| - 1])
  }

  /** Reading the digits back gives the number. */
  lemma {:induction false} DecimalRoundTrip(n: nat)
    ensures ParseDecimal(Decimal(n)) == n
    decreases n
  {
    var s := Decimal(n);
    if n < 10 {
      assert s[..0] == [];
    } else {
      var high := Decimal(n / 10);
      assert s[..|s| - 1] == high;
      DecimalRoundTrip(n / 10);
    }
  }

  /** Two numbers with the same decimal text are the same number. */
  lemma DecimalInjective(m: nat, n: nat)
    requires Decimal(m) == Decimal(n)
    ensures m == n
  {
    DecimalRoundTrip(m);
    DecimalRoundTrip(n);
  }

  /** `paginationText`: `\n<index + 1>/<total>` when pagination is on, else empty. */
  function PaginationText(paginate: bool, index: nat, total: nat): string {
    if paginate then "\n" + Decimal(index + 1) + "/" + Decimal(total) else ""
  }

  /** Reads a pagination text back: a line feed, digits, `/`, digits. */
  function ParseSuffix(t: string): Option<(nat, nat)> {
    if |t| < 4 || t[0] != '\n' then None
    else
      var body := t[1..];
      var slash := IndexOf(body, "/", 0);
      if slash <= 0 || slash + 1 >= |body| then None
      else
        var num, den := body[..slash], body[slash + 1..];
        if AllDigits(num) && AllDigits(den) then Some((ParseDecimal(num), ParseDecimal(den))) else None
  }

  lemma IndexOfFirst(s: string, pat: string, k: nat)
    requires |pat| > 0 && OccursAt(s, pat, k)
    requires forall i :: 0 <= i < k ==> !OccursAt(s, pat, i)
    ensures IndexOf(s, pat, 0) == k
  {
  }

  /** The pagination text names the post's position, counted from one, and
      the number of posts. */
  lemma SuffixRoundTrip(index: nat, total: nat)
    ensures ParseSuffix(PaginationText(true, index, total)) == Some((index + 1, total))
  {
    var t := PaginationText(true, index, total);
    var num, den := Decimal(index + 1), Decimal(total);
    var body := t[1..];
    assert body == num + "/" + den;
    forall i | 0 <= i < |num|
      ensures !OccursAt(body, "/", i)
    {
      assert IsDigit(num[i]);
      assert body[i..i + 1][0] == body[i] == num[i];
    }
    assert OccursAt(body, "/", |num|) by {
      assert body[|num|..|num| + 1] == "/";
    }
    IndexOfFirst(body, "/", |num|);
    assert body[..|num|] == num;
    assert body[|num| + 1..] == den;
    DecimalRoundTrip(index + 1);
    DecimalRoundTrip(total);
  }

  /** What the preview shows for one chunk and what its copy button holds. */
  datatype Post = Post(charCount: nat, body: string, pagination: string, copyText: string)

  /** The values computed for the chunk at `index` of `total`. */
  function PostOf(chunk: string, index: nat, total: nat, paginate: bool): Post {
    var pagination := PaginationText(paginate, index, total);
    Post(|chunk|, Formatted(chunk), pagination, EscapeHtml(chunk + pagination))
  }

  /** Each post counts the characters of its chunk, shows the chunk formatted,
      numbers itself from one when pagination is on, and the text stored on
      its copy button decodes to the chunk followed by the pagination text. */
  lemma PostContents(chunk: string, index: nat, total: nat, paginate: bool)
    ensures var p := PostOf(chunk, index, total, paginate);
      && p.charCount == |chunk|
      && p.body == Formatted(chunk)
      && (paginate ==> ParseSuffix(p.pagination) == Some((index + 1, total)))
      && (!paginate ==> p.pagination == "")
      && DecodeEntities(p.copyText) == chunk + p.pagination
  {
    EscapeHtmlRoundTrip(chunk + PaginationText(paginate, index, total));
    SuffixRoundTrip(index, total);
  }

  /** The body of the `forEach` callback for the chunk at `index`. */
  method RenderPost(chunk: string, index: nat, totalPosts: nat, paginate: bool) returns (post: Post)
    ensures post == PostOf(chunk, index, totalPosts, paginate)
  {
    var charCount := |chunk|;
    var formattedChunk := FormatChunk(chunk);
    var paginationText := "";
    if paginate {
      paginationText := "\n" + Decimal(index + 1) + "/" + Decimal(totalPosts);
    }
    post := Post(charCount, formattedChunk, paginationText, EscapeHtml(chunk + paginationText));
  }

  /** The `chunks.forEach((chunk, index) => ...)` of the input handler, with
      the preview markup around each post left out. */
  method RenderPosts(chunks: seq<string>, paginate: bool) returns (posts: seq<Post>)
    ensures |posts| == |chunks|
    ensures forall i :: 0 <= i < |chunks| ==> posts[i] == PostOf(chunks[i], i, |chunks|, paginate)
  {
    var totalPosts := |chunks|;
    posts := [];
    for index := 0 to |chunks|
      invariant |posts| == index
      invariant forall i :: 0 <= i < index ==> posts[i] == PostOf(chunks[i], i, |chunks|, paginate)
    {
      var post := RenderPost(chunks[index], index, totalPosts, paginate);
      PostsSnoc(chunks, paginate, posts, post);
      posts := posts + [post];
    }
  }

  lemma PostsSnoc(chunks: seq<string>, paginate: bool, posts: seq<Post>, post: Post)
    requires |posts| < |chunks|
    requires forall i :: 0 <= i < |posts| ==> posts[i] == PostOf(chunks[i], i, |chunks|, paginate)
    requires post == PostOf(chunks[|posts|], |posts|, |chunks|, paginate)
    ensures forall i :: 0 <= i <= |posts| ==> (posts + [post])[i] == PostOf(chunks[i], i, |chunks|, paginate)
  {
    forall i | 0 <= i <= |posts|
      ensures (posts + [post])[i] == PostOf(chunks[i], i, |chunks|, paginate)
    {
      if i < |posts| {
        assert (posts + [post])[i] == posts[i];
      }
    }
  }
}

=== FILE: text.dfy ===
/**
 * The JavaScript string primitives the engine is built on, as functions on
 * `string` (a sequence of code points): character classes, `trim`, `split`,
 * `join`, `indexOf` and the argument-swapping `substring`.
 */
module Text {

  /** ECMA-262 WhiteSpace and LineTerminator: the code points that
      `String.prototype.trim` strips and that the regex class `\s` matches. */
  predicate IsWhitespace(c: char) {
    || c == ' ' || c == '\t' || c == '\n' || c == '\r' || c == '\U{B}' || c == '\U{C}'
    || c == '\U{A0}' || c == '\U{1680}' || ('\U{2000}' <= c <= '\U{200A}')
    || c == '\U{2028}' || c == '\U{2029}' || c == '\U{202F}' || c == '\U{205F}'
    || c == '\U{3000}' || c == '\U{FEFF}'
  }

  /** The regex class `\w` of a pattern without the `u` and `i` flags: `[A-Za-z0-9_]`. */
  predicate IsWordChar(c: char) {
    ('A' <= c <= 'Z') || ('a' <= c <= 'z') || ('0' <= c <= '9') || c == '_'
  }

  /** The regex class `[a-z]`. */
  predicate IsLower(c: char) {
    'a' <= c <= 'z'
  }

  predicate AllWhitespace(s: string) {
    forall i :: 0 <= i < |s| ==> IsWhitespace(s[i])
  }

  /** Neither starts nor ends with whitespace (the empty string included). */
  predicate Trimmed(s: string) {
    s == [] || (!IsWhitespace(s[0]) && !IsWhitespace(s[|s| - 1]))
  }

  /** The length of the whitespace run at the front of `s`. */
  function LeadingWhitespace(s: string): (n: nat)
    ensures n <= |s| && AllWhitespace(s[..n])
    ensures n < |s| ==> !IsWhitespace(s[n])
  {
    if s != [] && IsWhitespace(s[0]) then
      var m := LeadingWhitespace(s[1..]);
      assert s[..1 + m] == [s[0]] + s[1..][..m];
      1 + m
    else
      0
  }

  /** The length of the whitespace run at the back of `s`. */
  function TrailingWhitespace(s: string): (n: nat)
    ensures n <= |s| && AllWhitespace(s[|s| - n..])
    ensures n < |s| ==> !IsWhitespace(s[|s| - n - 1])
  {
    if s != [] && IsWhitespace(s[|s| - 1]) then
      var m := TrailingWhitespace(s[..|s| - 1]);
      TrailingRunGrows(s, m);
      1 + m
    else
      0
  }

  /** A whitespace run at the back of `s` without its last character, followed
      by a last character that is whitespace, is a run one longer. */
  lemma TrailingRunGrows(s: string, m: nat)
    requires s != [] && m < |s| && IsWhitespace(s[|s| - 1])
    requires AllWhitespace(s[..|s| - 1][|s| - 1 - m..])
    ensures AllWhitespace(s[|s| - (1 + m)..])
  {
    var u, v := s[|s| - (1 + m)..], s[..|s| - 1][|s| - 1 - m..];
    forall j | 0 <= j < |u|
      ensures IsWhitespace(u[j])
    {
      if j < m {
        assert u[j] == v[j];
      }
    }
  }

  /** `String.prototype.trim`: `s` is the leading whitespace, then `r`, then
      trailing whitespace, and `r` itself neither starts nor ends with whitespace. */
  function Trim(s: string): (r: string)
    ensures Trimmed(r) && |r| <= |s|
    ensures LeadingWhitespace(s) + |r| <= |s|
    ensures r == s[LeadingWhitespace(s)..LeadingWhitespace(s) + |r|]
    ensures AllWhitespace(s[LeadingWhitespace(s) + |r|..])
  {
    var a := LeadingWhitespace(s);
    if a == |s| then
      []
    else
      var t := TrailingWhitespace(s);
      assert a < |s| - t;
      s[a..|s| - t]
  }

  /** Text that ends in a character other than whitespace loses only its
      leading whitespace to `trim`. */
  lemma TrimKeepsEnd(s: string)
    requires s != [] && !IsWhitespace(s[|s| - 1])
    ensures LeadingWhitespace(s) + |Trim(s)| == |s|
    ensures Trim(s) == s[LeadingWhitespace(s)..]
  {
    assert TrailingWhitespace(s) == 0;
    assert s[..|s|] == s;
  }

  /** Text that ends in a character other than whitespace is the whitespace
      `trim` drops at its front, followed by the trimmed text. */
  lemma TrimSplit(s: string)
    requires s != [] && !IsWhitespace(s[|s| - 1])
    ensures var a := |s| - |Trim(s)|; s == s[..a] + Trim(s) && AllWhitespace(s[..a])
  {
    TrimKeepsEnd(s);
  }

  lemma TrimOfTrimmed(s: string)
    requires Trimmed(s)
    ensures Trim(s) == s
  {
    if s != [] {
      assert LeadingWhitespace(s) == 0;
      assert TrailingWhitespace(s) == 0;
    }
  }

  lemma TrimEmptyIffBlank(s: string)
    ensures Trim(s) == [] <==> AllWhitespace(s)
  {
    var a := LeadingWhitespace(s);
    if a < |s| {
      assert s[a..a + |Trim(s)|] == Trim(s);
      assert !IsWhitespace(s[a]);
    } else {
      assert s[..a] == s;
    }
  }

  /** `pat` occurs in `s` starting at index `i`. */
  predicate OccursAt(s: string, pat: string, i: int) {
    0 <= i && i + |pat| <= |s| && s[i..i + |pat|] == pat
  }

  ghost predicate Contains(s: string, pat: string) {
    exists i :: OccursAt(s, pat, i)
  }

  /** `String.prototype.indexOf(pat, from)`: the first occurrence at or after `from`, or -1. */
  function IndexOf(s: string, pat: string, from: nat): (r: int)
    requires |pat| > 0
    ensures r == -1 || (from <= r && OccursAt(s, pat, r))
    ensures forall i :: from <= i && (r == -1 || i < r) ==> !OccursAt(s, pat, i)
    decreases |s| - from
  {
    if from + |pat| > |s| then -1
    else if s[from..from + |pat|] == pat then from
    else IndexOf(s, pat, from + 1)
  }

  /** A pattern whose first character does not occur in `s` is not found. */
  lemma IndexOfAbsent(s: string, pat: string, from: nat)
    requires |pat| > 0 && pat[0] !in s
    ensures IndexOf(s, pat, from) == -1
  {
    forall i | 0 <= i
      ensures !OccursAt(s, pat, i)
    {
      if i + |pat| <= |s| {
        assert s[i..i + |pat|][0] == s[i];
      }
    }
  }

  /** `parts.join(sep)`. */
  function Join(parts: seq<string>, sep: string): string {
    if |parts| == 0 then ""
    else if |parts| == 1 then parts[0]
    else parts[0] + sep + Join(parts[1..], sep)
  }

  /** `parts.join('')`. */
  function Concat(parts: seq<string>): string {
    if parts == [] then "" else parts[0] + Concat(parts[1..])
  }

  lemma Assoc<T>(a: seq<T>, b: seq<T>, c: seq<T>)
    ensures a + (b + c) == (a + b) + c
  {
  }

  lemma {:induction false} ConcatSnoc(parts: seq<string>, x: string)
    ensures Concat(parts + [x]) == Concat(parts) + x
  {
    if parts == [] {
      assert [x][1..] == [];
    } else {
      assert (parts + [x])[1..] == parts[1..] + [x];
      ConcatSnoc(parts[1..], x);
    }
  }

  lemma PrefixFreeOfPattern(s: string, pat: string, i: nat)
    requires |pat| > 0 && i <= |s|
    requires forall j :: 0 <= j < i ==> !OccursAt(s, pat, j)
    ensures !Contains(s[..i], pat)
  {
    forall j | OccursAt(s[..i], pat, j)
      ensures false
    {
      assert s[..i][j..j + |pat|] == s[j..j + |pat|];
      assert OccursAt(s, pat, j);
    }
  }

  /** `String.prototype.split` with a non-empty literal separator: the pieces
      between the occurrences found left to right. Joining them back gives `s`,
      and no piece contains the separator. */
  function Split(s: string, sep: string): (parts: seq<string>)
    requires |sep| > 0
    ensures |parts| >= 1
    ensures Join(parts, sep) == s
    ensures forall k :: 0 <= k < |parts| ==> !Contains(parts[k], sep)
    ensures forall k :: 0 <= k < |parts| - 1 ==> !Contains(parts[k] + sep[..|sep| - 1], sep)
    decreases |s|
  {
    var i := IndexOf(s, sep, 0);
    if i == -1 then
      PrefixFreeOfPattern(s, sep, |s|);
      assert s[..|s|] == s;
      [s]
    else
      var rest := Split(s[i + |sep|..], sep);
      SplitJoinCons(s, sep, i, rest);
      SplitFreeCons(s, sep, i, rest);
      [s[..i]] + rest
  }

  /** Joining the piece before the first occurrence of the separator with the
      pieces after it gives the whole text back. */
  lemma SplitJoinCons(s: string, sep: string, i: nat, rest: seq<string>)
    requires OccursAt(s, sep, i)
    requires |rest| >= 1 && Join(rest, sep) == s[i + |sep|..]
    ensures Join([s[..i]] + rest, sep) == s
  {
    var parts := [s[..i]] + rest;
    assert parts[1..] == rest;
    assert s == s[..i] + sep + s[i + |sep|..];
  }

  /** The piece before the first occurrence of the separator, put in front of
      pieces free of the separator, keeps every piece free of it, also across
      each cut. */
  lemma SplitFreeCons(s: string, sep: string, i: nat, rest: seq<string>)
    requires |sep| > 0 && OccursAt(s, sep, i)
    requires forall j :: 0 <= j < i ==> !OccursAt(s, sep, j)
    requires forall k :: 0 <= k < |rest| ==> !Contains(rest[k], sep)
    requires forall k :: 0 <= k < |rest| - 1 ==> !Contains(rest[k] + sep[..|sep| - 1], sep)
    ensures var parts := [s[..i]] + rest;
      && (forall k :: 0 <= k < |parts| ==> !Contains(parts[k], sep))
      && (forall k :: 0 <= k < |parts| - 1 ==> !Contains(parts[k] + sep[..|sep| - 1], sep))
  {
    PrefixFreeOfPattern(s, sep, i);
    FirstCut(s, sep, i);
    var parts := [s[..i]] + rest;
    forall k | 1 <= k < |parts|
      ensures !Contains(parts[k], sep)
      ensures k < |parts| - 1 ==> !Contains(parts[k] + sep[..|sep| - 1], sep)
    {
      assert parts[k] == rest[k - 1];
    }
  }


  /** A piece cut at the first occurrence of the separator does not, with all
      but the last character of the separator after it, contain the separator:
      the cut is not at a later, overlapping occurrence. */
  lemma FirstCut(s: string, sep: string, i: nat)
    requires |sep| > 0 && OccursAt(s, sep, i)
    requires forall j :: 0 <= j < i ==> !OccursAt(s, sep, j)
    ensures !Contains(s[..i] + sep[..|sep| - 1], sep)
  {
    var t := s[..i] + sep[..|sep| - 1];
    assert t == s[..i + |sep| - 1];
    forall j | 0 <= j && j + |sep| <= |t|
      ensures !OccursAt(t, sep, j)
    {
      assert j < i && !OccursAt(s, sep, j);
      assert t[j..j + |sep|] == s[j..j + |sep|];
    }
  }

  /** `s.substring(a, b)`: both arguments clamped to `[0, |s|]`, and swapped when
      the first exceeds the second. */
  function Substring(s: string, a: int, b: int): (r: string)
    ensures 0 <= a <= b <= |s| ==> r == s[a..b]
    ensures 0 <= b <= a <= |s| ==> r == s[b..a]
  {
    var lo := Clamp(a, |s|);
    var hi := Clamp(b, |s|);
    if lo <= hi then s[lo..hi] else s[hi..lo]
  }

  /** `s.substring(a)`: from the clamped index to the end. */
  function SubstringFrom(s: string, a: int): (r: string)
    ensures 0 <= a <= |s| ==> r == s[a..]
  {
    s[Clamp(a, |s|)..]
  }

  function Clamp(x: int, n: nat): (r: nat)
    ensures r <= n
    ensures 0 <= x <= n ==> r == x
  {
    if x < 0 then 0 else if x > n then n else x
  }

  /** The number of occurrences of `c` in `s`. */
  function CountChar(s: string, c: char): nat {
    if s == [] then 0 else (if s[0] == c then 1 else 0) + CountChar(s[1..], c)
  }

  lemma {:induction false} CountCharConcat(a: string, b: string, c: char)
    ensures CountChar(a + b, c) == CountChar(a, c) + CountChar(b, c)
  {
    if a != [] {
      assert (a + b)[1..] == a[1..] + b;
      CountCharConcat(a[1..], b, c);
    } else {
      assert a + b == b;
    }
  }

  lemma CountCharAbsent(s: string, c: char)
    requires c !in s
    ensures CountChar(s, c) == 0
  {
    if s != [] {
      assert c !in s[1..];
      CountCharAbsent(s[1..], c);
    }
  }

  lemma NotContainsChar(s: string, c: char)
    requires !Contains(s, [c])
    ensures c !in s
  {
    forall i | 0 <= i < |s|
      ensures s[i] != c
    {
      assert s[i..i + 1] == [s[i]];
      assert !OccursAt(s, [c], i);
    }
  }

  /** Splitting on a one-character separator gives one more piece than there
      are separators. */
  lemma {:induction false} SplitCount(s: string, c: char)
    ensures |Split(s, [c])| == CountChar(s, c) + 1
  {
    JoinCount(Split(s, [c]), c);
  }

  lemma {:induction false} JoinCount(parts: seq<string>, c: char)
    requires |parts| >= 1
    requires forall k :: 0 <= k < |parts| ==> !Contains(parts[k], [c])
    ensures CountChar(Join(parts, [c]), c) == |parts| - 1
  {
    NotContainsChar(parts[0], c);
    CountCharAbsent(parts[0], c);
    if |parts| > 1 {
      JoinCount(parts[1..], c);
      CountCharConcat(parts[0], [c], c);
      CountCharConcat(parts[0] + [c], Join(parts[1..], [c]), c);
      assert CountChar([c], c) == 1;
    }
  }

  /** Every piece of a blank string joined by any separator is blank. */
  lemma {:induction false} JoinBlank(parts: seq<string>, sep: string)
    requires AllWhitespace(Join(parts, sep))
    ensures forall k :: 0 <= k < |parts| ==> AllWhitespace(parts[k])
  {
    if |parts| > 1 {
      var j := Join(parts, sep);
      assert j == parts[0] + sep + Join(parts[1..], sep);
      assert forall i :: 0 <= i < |parts[0]| ==> parts[0][i] == j[i];
      var tail := Join(parts[1..], sep);
      assert forall i :: 0 <= i < |tail| ==> tail[i] == j[|parts[0]| + |sep| + i];
      JoinBlank(parts[1..], sep);
      forall k | 1 <= k < |parts| ensures AllWhitespace(parts[k]) {
        assert parts[k] == parts[1..][k - 1];
      }
    }
  }
}
